=== FILE: README.md ===
# Rating app core, modelled in Dafny

A model of the core of a social rating service (a Django project).

- **Ratings.** Users rate each other's profiles in three required categories with scores from 1 to 10. Each profile keeps running per-category totals.
- **Recomputation.** Per-category statistics and an overall average are recomputed from the comments.
- **Comment mean.** Each comment shows the mean of its own scores.
- **One-time codes.** Accounts are activated with a six-digit code that is valid for five minutes. Regenerating the code is limited by a retry allowance with a one-hour lockout.
- **Accounts.** The account views cover signup (a chain of field checks), login (existence, then activation, then password) and password reset by emailed code.
- **Toggles.** Comments carry like and dislike toggles that exclude each other. Profiles follow each other through a toggle that writes two stored relations.
- **Validators.** Field validators cover phone numbers and upload size. Model validators cover inquiries and reports, and a serializer validates report requests.

Everything is functional: every request handler is a function from the relevant state and request data to a `Result` carrying either the new state or the error the view answers.

Conventions:
- **Time.** Time is an integer number of seconds passed in as `now`.
- **Codes.** Random codes are parameters.
- **Library answers.** Library answers are boolean parameters: e-mail syntax, password hash comparison and profile lookup.
- **Allowance.** The configured `MAX_OTP_TRY` is a positive parameter `maxTry`.

| module | file | what it holds |
|---|---|---|
| `Results` | results.dfy | `Option`, `Result`, `Outcome` |
| `Decimal` | decimal.dfy | decimal rendering and parsing of integers (`str(n)`) |
| `Sums` | sums.dfy | order-independent sums and means over finite maps |
| `Entities` | entities.dfy | `Profile`, `Comment`, `Aggregate` |
| `Validators` | validators.dfy | phone and file-size validators |
| `Ratings` | ratings.dfy | rating submission, statistics, averages |
| `Otp` | otp.dfy | code issue, verification, regeneration with lockout |
| `Accounts` | accounts.dfy | signup, login, forgotten-password code, password reset |
| `Reactions` | reactions.dfy | like / dislike toggles and the comment consistency rule |
| `Follows` | follows.dfy | follow toggle over the two stored relations |
| `Moderation` | moderation.dfy | inquiry stripping and validation, report validation |

Where the documented design and the code differ, the model follows the code:
- **Issuing a code.** It never checks the lockout. Only regeneration does.
- **Verification.** It clears the expiry but keeps the stored code.
- **Regeneration after an ended lockout.** It restores the full allowance but leaves the old lockout end in place.

## Model

| member | source | states |
|---|---|---|
| Ratings.SubmitRating | SocialApp/CoreApp/views.py:104-161 | accepted exactly when the author is signed in, the target exists, the content is non-empty, the scores are a dictionary holding categories 1, 2 and 3, and every score is an integer in [1, 10]; a refusal names the first failed check (not signed in, no profile, no content, not a dictionary, the first of 1, 2, 3 that is missing, a score out of range) and writes nothing; on acceptance each submitted category's aggregate grows by the score and by one comment, starting from (0, 0), every other aggregate and field of the profile is unchanged, and the comment records exactly the submitted scores |
| Ratings.FirstMissing | SocialApp/CoreApp/views.py:128-132 | no answer exactly when every required category is scored; otherwise the earliest required category in order that is not scored |
| Ratings.Contribution | SocialApp/CoreApp/models.py:113-119 | a comment contributes its score map when non-empty, else its single legacy category and score, and nothing when that score is 0 |
| Ratings.TallyCountsScoringComments | SocialApp/CoreApp/models.py:104-125 | the recomputed tally of a known category is the sum of the scores the comments give it and the number of comments that score it, against an independent definition by indices |
| Ratings.CategoryCommentStats | SocialApp/CoreApp/models.py:127-135 | the statistics have an entry for every known category and nothing else; each entry carries that category's recomputed score and comment count, and its mean times the count is the score, or 0 without comments |
| Ratings.UnknownCategoryDropped | SocialApp/CoreApp/models.py:122-125 | a category id that is not a known category is stored in the running totals by a submission but never appears in the recomputed statistics |
| Ratings.SubmitKeepsTotalsAgreeing | SocialApp/CoreApp/views.py:139-157 | when the running totals equal the tallies recomputed from the comments, an accepted submission keeps them equal once its comment is added |
| Ratings.UserAverageScore | SocialApp/CoreApp/models.py:142-159 | the overall average is 0 without categories, and otherwise the sum of the per-category means divided by the number of all known categories, untouched categories counting 0 |
| Ratings.AverageInRange | SocialApp/CoreApp/models.py:127-159 | with scores in [1, 10] every category mean lies in [0, 10], in [1, 10] once it has a comment, and the overall average lies in [0, 10] |
| Ratings.WorkedExample | SocialApp/CoreApp/models.py:142-159 | scores 8 and 10 in one of two categories give means 9 and 0 and an overall average of 4.5 |
| Ratings.CommentAverageScore | SocialApp/CoreApp/serializers.py:51-65 | 0 for a comment without scores; otherwise the result times the number of scores is their sum, and it lies within any bounds all scores lie within |
| Decimal.ParseDecimalString | SocialApp/CoreApp/views.py:589-593 | the decimal text stored for a drawn number reads back as that number |
| Decimal.DecimalStringInjective | SocialApp/CoreApp/views.py:589-593 | distinct numbers have distinct decimal texts |
| Otp.CodeNumberText | SocialApp/CoreApp/views.py:589-593 | a code drawn from [100000, 999999] is stored as six decimal digits |
| Otp.GenerateOtp | SocialApp/CoreApp/models.py:96-101 | the given code is stored and returned with an expiry five minutes ahead; nothing else changes |
| Otp.Verify | SocialApp/CoreApp/views.py:550-577 | succeeds exactly for an inactive profile whose code equals the submitted one and whose expiry is set and strictly later than now; success activates, clears expiry and lockout, restores the allowance; failure changes nothing |
| Otp.Regenerate | SocialApp/CoreApp/views.py:580-608 | refused exactly while the allowance is exhausted and the lockout has not ended; succeeds exactly when neither that nor the server error below applies, with a new code valid five minutes; an allowance of 1 becomes 0 with a one-hour lockout, 0 becomes the full allowance with the old lockout kept, anything else decrements and clears the lockout; an exhausted allowance without a lockout end is a server error |
| Otp.GenerateKeepsWellFormed | SocialApp/CoreApp/models.py:96-101 | issuing a code keeps the allowance within the maximum and an exhausted allowance paired with a lockout end |
| Otp.VerifyKeepsWellFormed | SocialApp/CoreApp/views.py:567-571 | verification keeps that invariant |
| Otp.RegenerateKeepsWellFormed | SocialApp/CoreApp/views.py:586-603 | regeneration keeps it, and from a profile that satisfies it, regeneration is refused only by a lockout, never by a server error |
| Otp.VerifyOnce | SocialApp/CoreApp/views.py:555-571 | after a successful verification any further verification fails |
| Otp.GeneratedCodeVerifies | SocialApp/CoreApp/views.py:555-560 | a freshly issued code verifies an inactive account exactly before five minutes have passed |
| Otp.RegeneratedCodeVerifies | SocialApp/CoreApp/views.py:589-594 | the same for a regenerated code |
| Otp.RegenerateExhausts | SocialApp/CoreApp/views.py:586-598 | with c regenerations left, c regenerations at one instant succeed, leave the allowance at 0 with a lockout one hour ahead, and the next one is refused |
| Otp.RegenerateReplacesCode | SocialApp/CoreApp/views.py:589-594 | after a second regeneration with a different number, the code of the first no longer verifies |
| Otp.LockoutEnds | SocialApp/CoreApp/views.py:586-600 | once the lockout has ended, regeneration succeeds, restores the full allowance and keeps the old lockout end |
| Accounts.FirstEmpty | SocialApp/UserAuth/views.py:85-91 | no answer exactly when every required field is filled; otherwise the first empty field in the order of the list |
| Accounts.Signup | SocialApp/UserAuth/views.py:84-180 | an account is created exactly when every check passes; each refusal is the first failing check in the view's order: the first missing field by name, an invalid e-mail, a short password, a phone the validator as written refuses, the year text, year, month and February day, an age under 13, a username and then an e-mail taken by a login account; a username, e-mail or phone already on a profile passes those checks and is refused exactly by the server error raised when the profile cannot be stored; the new profile has the given id, is inactive, carries the issued code valid five minutes, the full allowance, no lockout, no scores and no follow relations |
| Accounts.SignupStartsAgreeing | SocialApp/UserAuth/views.py:156-169 | a new account's running totals agree with the recomputation from its (no) comments |
| Accounts.SignupPhoneShape | SocialApp/UserAuth/views.py:106-110 | an accepted phone is ten digits not starting with '0', or those ten digits followed by a newline |
| Accounts.SignupPhoneWithNewline | SocialApp/UserAuth/views.py:106-110 | "1234567890\n" is not refused as an invalid phone number |
| Accounts.AgeMeansBirthdayPassed | SocialApp/UserAuth/views.py:131-134 | the age test accepts exactly those whose n-th birthday is today or earlier |
| Accounts.Feb29NeedsLeapYear | SocialApp/UserAuth/views.py:125-128 | an accepted 29 February birth date lies in a leap year, so never in 1900 |
| Accounts.LeadingDigitTestRedundant | SocialApp/UserAuth/views.py:116-120 | every year from 1900 to 2999 passes the leading-digit test, so it refuses nothing the range test accepts |
| Accounts.Login | SocialApp/UserAuth/views.py:26-51 | succeeds exactly for an existing, activated account with a matching password; each refusal is the first failing step: no account, no profile (a server error), not activated, wrong password; an inactive account is refused as not activated before the password is compared |
| Accounts.SignupThenLogin | SocialApp/UserAuth/views.py:33-37 | a new account cannot log in until its code is verified, and can once it is |
| Accounts.ForgotPassword | SocialApp/UserAuth/views.py:183-202 | an e-mail is required and must be known; a new six-digit code valid five minutes is stored and nothing else changes |
| Accounts.ResetPasswordAsWritten | SocialApp/UserAuth/views.py:205-229 | fails with the comparison's server error exactly when all fields are given, the code matches and the expiry has been cleared; fails with the user lookup's server error exactly when the code is valid but no user has the e-mail; success only clears the expiry |
| Accounts.ResetAfterVerifyFails | SocialApp/UserAuth/views.py:219-220 | the code that activated an account, submitted for a reset, triggers that server error |
| Accounts.ResetPassword | SocialApp/UserAuth/views.py:205-229 | succeeds exactly when all fields are given, the account exists, the code matches, the expiry is set and not passed and a user has the e-mail; a valid code without that user is the lookup's server error; success clears the expiry and keeps the code; never a server error |
| Accounts.ResetAgreesExceptServerError | SocialApp/UserAuth/views.py:211-227 | the corrected reset answers as the written one wherever that one does not fail with a server error |
| Accounts.ExpiryInstant | SocialApp/UserAuth/views.py:219-220 | at the expiry instant a code no longer verifies an account but still resets its password |
| Accounts.ForgotThenReset | SocialApp/UserAuth/views.py:183-229 | a code issued for a reset works exactly within five minutes when a user has the e-mail, and only once |
| Accounts.ResetKeepsWellFormed | SocialApp/UserAuth/views.py:194-227 | requesting and using a reset code keep the code invariant |
| Reactions.CleanComment | SocialApp/CoreApp/models.py:227-229 | passes exactly when no user both likes and dislikes the comment |
| Reactions.ToggleLike | SocialApp/CoreApp/views.py:249-269 | withdraws the user's dislike, flips the user's like and reports which way; every other user's reactions and the rest of the comment are unchanged; consistency is preserved |
| Reactions.ToggleDislike | SocialApp/CoreApp/views.py:277-297 | the mirror image for dislikes |
| Reactions.LikeTwice | SocialApp/CoreApp/views.py:257-267 | liking twice gives back the comment with only the user's dislike withdrawn, and the comment itself when there was none |
| Reactions.DislikeTwice | SocialApp/CoreApp/views.py:285-295 | the mirror image for dislikes |
| Reactions.LikeThenDislike | SocialApp/CoreApp/views.py:285-295 | a like followed by a dislike leaves only the dislike |
| Reactions.TogglesKeepClean | SocialApp/CoreApp/models.py:227-229 | the toggles keep every comment passing the consistency check |
| Follows.ToggleFollow | SocialApp/CoreApp/views.py:357-378 | refused for an unknown target or a self-follow; otherwise flips target in the caller's following and the caller in the target's followers together, and changes nothing else |
| Follows.ToggleKeepsMirrored | SocialApp/CoreApp/views.py:366-376 | the toggle keeps the following and follower relations mirror images of each other |
| Follows.ToggleTwice | SocialApp/CoreApp/views.py:366-376 | on mirrored relations toggling twice restores every profile |
| Follows.ToggleFlipsOneEdge | SocialApp/CoreApp/views.py:366-376 | the follow relation changes in exactly the one edge from caller to target |
| Follows.SelfFollowRefused | SocialApp/CoreApp/views.py:362-364 | following oneself is refused |
| Validators.ValidatePhoneAsWritten | SocialApp/CoreApp/models.py:21-33 | accepts exactly what the pattern matches, ten digits possibly followed by a newline, when the first character is not '0' |
| Validators.PhoneTrailingNewlineAccepted | SocialApp/CoreApp/models.py:28-30 | an eleven-character value, ten digits and a newline, is accepted |
| Validators.ValidatePhone | SocialApp/CoreApp/models.py:21-33 | accepts exactly ten decimal digits not starting with '0' |
| Validators.PhoneValidatorsDiffer | SocialApp/CoreApp/models.py:28-33 | the written validator accepts exactly what the corrected one accepts plus a valid number followed by a newline |
| Validators.ValidPhoneIsTenDigitNumber | SocialApp/CoreApp/models.py:22-27 | an accepted phone number reads as a number in [10^9, 10^10) |
| Validators.MaxFileSize | SocialApp/CoreApp/models.py:36-40 | passes exactly up to 2 MB inclusive; a refusal reports the limit as 2 MB |
| Moderation.Strip | SocialApp/CoreApp/models.py:246-247 | the result neither starts nor ends with whitespace and is the slice of the text between a whitespace prefix and a whitespace suffix |
| Moderation.StripIdempotent | SocialApp/CoreApp/models.py:246-247 | stripping twice equals stripping once |
| Moderation.StripEmpty | SocialApp/CoreApp/models.py:246-247 | text strips to nothing exactly when it is all whitespace |
| Moderation.CleanInquiry | SocialApp/CoreApp/models.py:250-260 | passes exactly when subject and content are non-empty and at most 255 characters, the user is active and has no code that is still valid; the refusal names the first failing check: an empty field, a field too long, an inactive user, a pending code |
| Moderation.SaveInquiry | SocialApp/CoreApp/models.py:245-248 | stores subject and content stripped, never longer |
| Moderation.SavedInquiryFields | SocialApp/CoreApp/models.py:245-256 | a validated inquiry is stored within the 255-character limit, with an empty subject exactly when the subject was all whitespace |
| Moderation.WhitespaceSubjectStoredEmpty | SocialApp/CoreApp/models.py:245-251 | a one-space subject passes validation and is stored empty |
| Moderation.CleanReport | SocialApp/CoreApp/models.py:305-309 | passes exactly when the report names one of comment and profile, not both and not neither |
| Moderation.ValidateReport | SocialApp/CoreApp/serializers.py:79-84 | accepts exactly when a comment report names a comment and a profile report names a profile, returning the data unchanged |
| Moderation.ReportChecksAgree | SocialApp/CoreApp/serializers.py:79-84 | the serializer's check and the model's agree on reports naming only the target of their type |
| Moderation.SerializerAcceptsTwoTargets | SocialApp/CoreApp/serializers.py:79-84 | a comment report that also names a profile passes the serializer but fails the model's check |

## Left out

- Persistence, querysets, pagination, transactions and the admin site: the state is a value and every request handler a function over it.
- E-mail and SMS delivery, rate limiting, the IP and code middleware, JWT issuance, password hashing and `validate_email`: they are library calls, and the answers that matter are parameters.
- Random code generation and the clock: the code and `now` are parameters.
- Authentication of the request: modelled as an optional author id.
- The profile lookups of rating submission, the follow toggle, login, the forgotten-password request and the password reset are modelled as error variants, without the response bodies.
- Otp.Verify and Otp.Regenerate take the profile itself. The viewset's lookup by primary key, which answers 404 when it does not exist, is not modelled.
- The login view's uncaught missing profile is modelled as one error, `ProfileMissing`.
- The `UserAuth` serializers, profile search, listings and statistics views: they only read or present data.
- Score keys are JSON strings and are parsed with `int()`; the model uses integer category ids. A key that does not parse fails the recomputation, and the model does not cover that failure.
- A JSON boolean is not treated as an integer score. Python accepts `True` as an int; `ScoreValue` leaves that out.
- Codes are compared as text. Right after regeneration the view holds the code as an integer until the profile is reloaded; the model stores the text that is saved.
- `Accounts.Signup` takes the birth date already parsed. `strptime` format and calendar validation, and the `birth_date` field's own text, are not modelled; only the view's own checks on year, month, day and age are.
- `\d` in the phone pattern also matches non-ASCII decimal digits; `Validators.MatchesTenDigitPattern` treats only '0'–'9' as digits.
- Accounts.Signup: the database's column limits are not modelled: `max_length` 10 for the phone number, 20 for the username, 50 for e-mail and names, whose enforcement depends on the database. An accepted "1234567890\n" is eleven characters and exceeds the phone column. The profile table's unique username, e-mail and phone number are modelled, as the server error `ProfileNotCreated`.
- Ratings.SubmitKeepsTotalsAgreeing: holds only when the submitted keys are canonical decimal texts. The view stores running totals under the key text as sent ("01", "+1", " 1", "1_0"), while the recomputation merges keys through `int()`; the model's integer ids identify such keys.
- Reactions.ToggleLike and Reactions.ToggleDislike take the comment itself and the user's profile id. The lookup of the comment by id, which answers 404 when it does not exist, is not modelled, and neither is the error raised for a signed-in user without a profile.
- Ratings.CategoryCommentStats: means are exact reals, not rounded to two decimals as the source does.
- Ratings.UserAverageScore: the overall average is exact, not rounded to two decimals.
- Ratings.CommentAverageScore: the mean is exact, not rounded, and scores are already integers rather than converted with `int()`.
- Otp.Verify: the profile's activation flag stands for both the account's and the profile's flags, which the view sets together.
- Moderation.CleanInquiry: the user's activation flag is read from the profile, standing for the account's flag the source reads.
- `Sums.Sum` and `Sums.Mean` are ghost definitions. The method `Ratings.CommentAverageScore` computes the comment mean; the overall average is stated as a specification.

## Findings

| source | as written | input that shows it | evidently intended | confidence | as-written member | corrected member |
|---|---|---|---|---|---|---|
| SocialApp/CoreApp/models.py:28-30 | `re.match(r"^\d{10}$", value)`: `$` also matches just before a final newline | "1234567890\n" (eleven characters) is accepted | exactly ten digits, as the docstring says | high, not executed | Validators.ValidatePhoneAsWritten, Validators.PhoneTrailingNewlineAccepted | Validators.ValidatePhone |
| SocialApp/UserAuth/views.py:219 | `timezone.now() > user_profile.otp_expiry` after verification or a previous reset has set the expiry to `None` | verify an account with its code, then reset the password with that same code: the comparison raises a TypeError (server error) | answer "Invalid or expired OTP" | high, not executed | Accounts.ResetPasswordAsWritten, Accounts.ResetAfterVerifyFails | Accounts.ResetPassword |

Signup checks the phone number with the validator as written, as the view does. `Accounts.SignupPhoneShape` states what that lets through in terms of the corrected validator.

=== FILE: accounts.dfy ===
/** The account views: signup with its validation chain, login, and the
    password reset by emailed code. Password hashing, token issuance and
    e-mail syntax checking are library calls; their answers are parameters. */
module Accounts {
  import opened Results
  import opened Entities
  import opened Decimal
  import opened Validators
  import opened Otp
  import Ratings

  /** A calendar date as parsed from the request, or today's date. */
  datatype Date = Date(year: int, month: int, day: int)

  /** The signup request: its text fields by name, and the parsed birth date
      (the `birth_date` field must also be present and non-empty). */
  datatype SignupForm = SignupForm(fields: map<string, string>, birth: Date)

  datatype SignupError =
    | FieldRequired(name: string)
    | InvalidEmail
    | PasswordTooShort
    | InvalidPhone
    | InvalidDate
    | InvalidYear
    | InvalidMonth
    | TooYoung
    | UsernameTaken
    | EmailTaken
    | ProfileNotCreated

  /** The fields a signup must fill, checked in this order. */
  const RequiredFields: seq<string> :=
    ["username", "email", "password", "first_name", "last_name", "phone_number", "birth_date"]

  /** A missing field reads as empty. */
  function Field(form: SignupForm, name: string): string {
    if name in form.fields then form.fields[name] else ""
  }

  /** The first required field, in order, that is missing or empty, if any. */
  function FirstEmpty(names: seq<string>, form: SignupForm): (r: Option<string>)
    ensures r.None? <==> forall i :: 0 <= i < |names| ==> Field(form, names[i]) != ""
    ensures r.Some? ==>
              exists i ::
                && 0 <= i < |names|
                && names[i] == r.value
                && Field(form, r.value) == ""
                && forall j :: 0 <= j < i ==> Field(form, names[j]) != ""
  {
    if |names| == 0 then None
    else if Field(form, names[0]) == "" then Some(names[0])
    else
      var r := FirstEmpty(names[1..], form);
      assert forall i :: 1 <= i < |names| ==> names[i] == names[1..][i - 1];
      if r.Some? then
        var i :| 0 <= i < |names[1..]| && names[1..][i] == r.value
          && Field(form, r.value) == "" && forall j :: 0 <= j < i ==> Field(form, names[1..][j]) != "";
        assert names[i + 1] == r.value;
        assert forall j :: 0 <= j < i + 1 ==> Field(form, names[j]) != "" by {
          forall j | 0 <= j < i + 1 ensures Field(form, names[j]) != "" {
            if j > 0 { assert names[j] == names[1..][j - 1]; }
          }
        }
        r
      else r
  }

  /** Gregorian leap years: divisible by 4, and not by 100 unless by 400. */
  predicate IsLeap(y: int) {
    y % 4 == 0 && (y % 100 != 0 || y % 400 == 0)
  }

  /** Python's `str(year).startswith(('1', '2'))`. */
  predicate YearTextStartsWithOneOrTwo(y: int) {
    Str(y)[0] == '1' || Str(y)[0] == '2'
  }

  /** (m1, d1) comes strictly before (m2, d2) in the year. */
  predicate Before(m1: int, d1: int, m2: int, d2: int) {
    m1 < m2 || (m1 == m2 && d1 < d2)
  }

  /** Completed years of age: the year difference, less one while this
      year's birthday is still ahead. */
  function Age(birth: Date, today: Date): int {
    today.year - birth.year - (if Before(today.month, today.day, birth.month, birth.day) then 1 else 0)
  }

  /** Values already taken: the usernames and e-mails of the login
      accounts, which the view checks, and the usernames, e-mails and phone
      numbers of the profiles, which only the database's unique constraints
      check. The two tables can differ, because a profile's username and
      e-mail can be edited without touching its login account. */
  datatype Registry = Registry(users: set<string>, emails: set<string>,
                               profileUsernames: set<string>, profileEmails: set<string>, phones: set<string>)

  /** The field, e-mail, password and phone checks pass. */
  predicate FieldsPass(form: SignupForm, emailValid: bool) {
    && (forall i :: 0 <= i < |RequiredFields| ==> Field(form, RequiredFields[i]) != "")
    && emailValid
    && |Field(form, "password")| >= 8
    && ValidatePhoneAsWritten(Field(form, "phone_number")).Pass?
  }

  /** The year text, year range, month and February checks pass. */
  predicate BirthDatePasses(b: Date, today: Date) {
    && YearTextStartsWithOneOrTwo(b.year)
    && 1900 <= b.year <= today.year
    && 1 <= b.month <= 12
    && (b.month == 2 ==> b.day <= 29 && (b.day == 29 ==> IsLeap(b.year)))
  }

  /** Every check the signup view makes before creating the account. */
  predicate ViewAccepts(form: SignupForm, emailValid: bool, today: Date, reg: Registry) {
    && FieldsPass(form, emailValid)
    && BirthDatePasses(form.birth, today)
    && Age(form.birth, today) >= 13
    && Field(form, "username") !in reg.users
    && Field(form, "email") !in reg.emails
  }

  /** The new profile would break a unique constraint of the profile table. */
  predicate ProfileClash(form: SignupForm, reg: Registry) {
    || Field(form, "username") in reg.profileUsernames
    || Field(form, "email") in reg.profileEmails
    || Field(form, "phone_number") in reg.phones
  }

  /** The view's checks pass and the database stores the profile. */
  predicate SignupAccepted(form: SignupForm, emailValid: bool, today: Date, reg: Registry) {
    ViewAccepts(form, emailValid, today, reg) && !ProfileClash(form, reg)
  }

  /** Signup. The checks run in the order of the view and the first failure
      is answered; the phone number goes through the model's validator as
      written. The account is created only when all pass: inactive, with a
      fresh code valid five minutes, the full regeneration allowance and no
      lockout, no scores and no follow relations. A username, e-mail or phone
      number already on another profile passes every check of the view and
      is refused by the database when the profile is created, which the view
      answers with a server error. `emailValid` is the answer of the library
      e-mail validator; `reg` holds the values already taken. */
  function Signup(form: SignupForm, emailValid: bool, today: Date, reg: Registry,
                  newId: ProfileId, code: string, now: int, maxTry: Allowance): (r: Result<Profile, SignupError>)
    requires IsSixDigitCode(code)
    ensures r.Ok? <==> SignupAccepted(form, emailValid, today, reg)
    ensures FirstEmpty(RequiredFields, form).Some? ==> r == Err(FieldRequired(FirstEmpty(RequiredFields, form).value))
    ensures FirstEmpty(RequiredFields, form).None? && !emailValid ==> r == Err(InvalidEmail)
    ensures FirstEmpty(RequiredFields, form).None? && emailValid && |Field(form, "password")| < 8 ==>
      r == Err(PasswordTooShort)
    ensures FirstEmpty(RequiredFields, form).None? && emailValid && |Field(form, "password")| >= 8 ==>
      (r == Err(InvalidPhone) <==> ValidatePhoneAsWritten(Field(form, "phone_number")).Fail?)
    ensures FieldsPass(form, emailValid) && !YearTextStartsWithOneOrTwo(form.birth.year) ==> r == Err(InvalidDate)
    ensures FieldsPass(form, emailValid) && YearTextStartsWithOneOrTwo(form.birth.year)
      && !(1900 <= form.birth.year <= today.year)
      ==> r == Err(InvalidYear)
    ensures FieldsPass(form, emailValid) && YearTextStartsWithOneOrTwo(form.birth.year)
      && 1900 <= form.birth.year <= today.year && !(1 <= form.birth.month <= 12)
      ==> r == Err(InvalidMonth)
    ensures FieldsPass(form, emailValid) && YearTextStartsWithOneOrTwo(form.birth.year)
      && 1900 <= form.birth.year <= today.year && 1 <= form.birth.month <= 12
      && !BirthDatePasses(form.birth, today)
      ==> r == Err(InvalidDate)
    ensures FieldsPass(form, emailValid) && BirthDatePasses(form.birth, today)
      && Age(form.birth, today) < 13
      ==> r == Err(TooYoung)
    ensures FieldsPass(form, emailValid) && BirthDatePasses(form.birth, today) && Age(form.birth, today) >= 13
      && Field(form, "username") in reg.users
      ==> r == Err(UsernameTaken)
    ensures FieldsPass(form, emailValid) && BirthDatePasses(form.birth, today) && Age(form.birth, today) >= 13
      && Field(form, "username") !in reg.users && Field(form, "email") in reg.emails
      ==> r == Err(EmailTaken)
    ensures r == Err(ProfileNotCreated) <==> ViewAccepts(form, emailValid, today, reg) && ProfileClash(form, reg)
    ensures r.Ok? ==>
      && r.value.username == Field(form, "username")
      && r.value.email == Field(form, "email")
      && r.value.phoneNumber == Field(form, "phone_number")
      && !r.value.isActive
      && r.value.otp == code
      && r.value.otpExpiry == Some(now + 300)
      && r.value.id == newId
      && r.value.maxOtpTry == maxTry && r.value.otpMaxOut.None?
      && WellFormed(r.value, maxTry)
      && r.value.categoryScores == map[] && r.value.followers == {} && r.value.following == {}
  {
    var b := form.birth;
    var missing := FirstEmpty(RequiredFields, form);
    if missing.Some? then Err(FieldRequired(missing.value))
    else if !emailValid then Err(InvalidEmail)
    else if |Field(form, "password")| < 8 then Err(PasswordTooShort)
    else if ValidatePhoneAsWritten(Field(form, "phone_number")).Fail? then Err(InvalidPhone)
    else if !YearTextStartsWithOneOrTwo(b.year) then Err(InvalidDate)
    else if b.year < 1900 || b.year > today.year then Err(InvalidYear)
    else if b.month < 1 || b.month > 12 then Err(InvalidMonth)
    else if b.month == 2 && b.day > 29 then Err(InvalidDate)
    else if b.month == 2 && b.day == 29 && !IsLeap(b.year) then Err(InvalidDate)
    else if Age(b, today) < 13 then Err(TooYoung)
    else if Field(form, "username") in reg.users then Err(UsernameTaken)
    else if Field(form, "email") in reg.emails then Err(EmailTaken)
    else if ProfileClash(form, reg) then Err(ProfileNotCreated)
    else
      var created := Profile(newId, Field(form, "username"), Field(form, "email"), Field(form, "phone_number"),
                             false, "", None, maxTry, None, map[], {}, {});
      Ok(GenerateOtp(created, code, now).0)
  }

  /** The age test accepts exactly those whose thirteenth birthday is today
      or earlier. */
  lemma AgeMeansBirthdayPassed(birth: Date, today: Date, n: int)
    ensures Age(birth, today) >= n <==>
      (birth.year + n < today.year
       || (birth.year + n == today.year && !Before(today.month, today.day, birth.month, birth.day)))
  {
  }

  /** A 29 February birth date is accepted only in leap years; 1900 is not
      one, 2000 is. */
  lemma Feb29NeedsLeapYear(form: SignupForm, emailValid: bool, today: Date,
                           reg: Registry)
    requires SignupAccepted(form, emailValid, today, reg)
    requires form.birth.month == 2 && form.birth.day == 29
    ensures IsLeap(form.birth.year)
    ensures form.birth.year != 1900
  {
  }

  /** A new account has no aggregates and no comments, so its running totals
      agree with the recomputation for any set of categories. */
  lemma SignupStartsAgreeing(form: SignupForm, emailValid: bool, today: Date,
                             reg: Registry,
                             newId: ProfileId, code: string, now: int, maxTry: Allowance, categories: set<CategoryId>)
    requires IsSixDigitCode(code)
    requires Signup(form, emailValid, today, reg, newId, code, now, maxTry).Ok?
    ensures Ratings.TotalsAgree(Signup(form, emailValid, today, reg, newId, code, now, maxTry).value,
                                categories, [])
  {
    Ratings.FreshProfileAgrees(Signup(form, emailValid, today, reg, newId, code, now, maxTry).value,
                               categories);
  }

  /** The phone number of an accepted signup is ten digits not starting with
      '0', possibly followed by a newline, which the pattern lets through. */
  lemma SignupPhoneShape(form: SignupForm, emailValid: bool, today: Date,
                         reg: Registry)
    requires SignupAccepted(form, emailValid, today, reg)
    ensures var phone := Field(form, "phone_number");
      || ValidatePhone(phone).Pass?
      || (|phone| == 11 && phone[10] == '\n' && ValidatePhone(phone[..10]).Pass?)
  {
    PhoneValidatorsDiffer(Field(form, "phone_number"));
  }

  /** A phone number with a trailing newline passes the phone check of the
      signup view; the request is then answered by the later checks. */
  lemma SignupPhoneWithNewline(form: SignupForm, emailValid: bool, today: Date,
                               reg: Registry,
                               newId: ProfileId, code: string, now: int, maxTry: Allowance)
    requires IsSixDigitCode(code)
    requires Field(form, "phone_number") == "1234567890\n"
    ensures Signup(form, emailValid, today, reg, newId, code, now, maxTry) != Err(InvalidPhone)
  {
    PhoneTrailingNewlineAccepted();
  }

  /** The leading-digit test never rejects a year the range test accepts,
      as long as the current year is below 3000. */
  lemma LeadingDigitTestRedundant(y: int)
    requires 1900 <= y <= 2999
    ensures YearTextStartsWithOneOrTwo(y)
  {
    LeadingDigitOfFour(y);
  }

  // ---------------------------------------------------------------------------
  // Login

  datatype LoginError = UserNotFound | NotActivated | WrongPassword | ProfileMissing

  /** Login: the account must exist, then be activated, and only then is the
      password compared. `account` is the record found by username,
      `profileFound` whether the profile lookup succeeds too (a missing one
      is not caught and fails the request), `passwordMatches` the answer of
      the password check. */
  function Login(account: Option<Profile>, profileFound: bool, passwordMatches: bool): (r: Result<Profile, LoginError>)
    ensures r.Ok? <==> account.Some? && profileFound && account.value.isActive && passwordMatches
    ensures account.None? ==> r == Err(UserNotFound)
    ensures account.Some? && !profileFound ==> r == Err(ProfileMissing)
    ensures account.Some? && profileFound && !account.value.isActive ==> r == Err(NotActivated)
    ensures account.Some? && profileFound && account.value.isActive && !passwordMatches ==> r == Err(WrongPassword)
    ensures r.Ok? ==> r.value == account.value
  {
    if account.None? then Err(UserNotFound)
    else if !profileFound then Err(ProfileMissing)
    else if !account.value.isActive then Err(NotActivated)
    else if !passwordMatches then Err(WrongPassword)
    else Ok(account.value)
  }

  /** A new account cannot log in, even with the right password, until its
      code is verified; after verification the right password logs it in. */
  lemma SignupThenLogin(form: SignupForm, emailValid: bool, today: Date,
                        reg: Registry,
                        newId: ProfileId, code: string, now: int, maxTry: Allowance, at: int)
    requires IsSixDigitCode(code)
    requires SignupAccepted(form, emailValid, today, reg)
    ensures var p := Signup(form, emailValid, today, reg, newId, code, now, maxTry).value;
      && Login(Some(p), true, true) == Err(NotActivated)
      && (at < now + 300 ==> Verify(p, Some(code), at, maxTry).Ok?
                             && Login(Some(Verify(p, Some(code), at, maxTry).value), true, true).Ok?)
  {
  }

  // ---------------------------------------------------------------------------
  // Password reset by code

  datatype ResetError = FieldsRequired | EmailUnknown | InvalidOrExpired | ResetServerError | UserMissing

  /** Requests a reset code: a new numeric code, valid five minutes, is
      stored on the profile found by e-mail. The regeneration allowance, the
      lockout and the activation flag are left alone. */
  function ForgotPassword(email: string, account: Option<Profile>, newCode: int, now: int): (r: Result<Profile, ResetError>)
    requires IsCodeNumber(newCode)
    ensures email == "" ==> r == Err(FieldsRequired)
    ensures email != "" && account.None? ==> r == Err(EmailUnknown)
    ensures r.Ok? <==> email != "" && account.Some?
    ensures r.Ok? ==>
      && r.value.otp == Str(newCode) && IsSixDigitCode(r.value.otp)
      && r.value.otpExpiry == Some(now + 300)
      && r.value == account.value.(otp := r.value.otp, otpExpiry := r.value.otpExpiry)
  {
    if email == "" then Err(FieldsRequired)
    else if account.None? then Err(EmailUnknown)
    else
      CodeNumberText(newCode);
      Ok(account.value.(otp := Str(newCode), otpExpiry := Some(now + OtpLifetime)))
  }

  /** Password reset as written: the code is compared first, then the clock
      against the expiry. A cleared expiry makes that comparison fail with a
      server error. `userFound` says whether the account's user is found by
      the same e-mail; its lookup is not guarded, so a missing user is the
      server error `UserMissing`. */
  function ResetPasswordAsWritten(email: string, code: string, password: string, account: Option<Profile>,
                                  userFound: bool, now: int)
    : (r: Result<Profile, ResetError>)
    ensures r == Err(ResetServerError) <==>
      email != "" && code != "" && password != "" && account.Some? && account.value.otp == code && account.value.otpExpiry.None?
    ensures r == Err(UserMissing) <==>
      && email != "" && code != "" && password != ""
      && account.Some? && account.value.otp == code
      && account.value.otpExpiry.Some? && now <= account.value.otpExpiry.value
      && !userFound
    ensures r.Ok? ==> account.Some? && r.value == account.value.(otpExpiry := None)
  {
    if email == "" || code == "" || password == "" then Err(FieldsRequired)
    else if account.None? then Err(EmailUnknown)
    else if account.value.otp != code then Err(InvalidOrExpired)
    else if account.value.otpExpiry.None? then Err(ResetServerError)
    else if now > account.value.otpExpiry.value then Err(InvalidOrExpired)
    else if !userFound then Err(UserMissing)
    else Ok(account.value.(otpExpiry := None))
  }

  /** Verification clears the expiry but keeps the code, so resetting the
      password with the code that activated the account fails with a server
      error instead of "invalid or expired". */
  lemma ResetAfterVerifyFails(p: Profile, code: string, at: int, maxTry: Allowance, email: string, password: string,
                              userFound: bool, later: int)
    requires Verify(p, Some(code), at, maxTry).Ok?
    requires email != "" && code != "" && password != ""
    ensures ResetPasswordAsWritten(email, code, password, Some(Verify(p, Some(code), at, maxTry).value), userFound, later)
      == Err(ResetServerError)
  {
  }

  /** Password reset: it succeeds when the code equals the stored one and the
      expiry is set and not yet passed (the expiry instant itself is still
      accepted); it clears the expiry and keeps the code. A cleared expiry is
      answered as an invalid or expired code. A missing user is still
      `UserMissing`, as in the written reset. */
  function ResetPassword(email: string, code: string, password: string, account: Option<Profile>,
                         userFound: bool, now: int)
    : (r: Result<Profile, ResetError>)
    ensures r != Err(ResetServerError)
    ensures r.Ok? <==>
      && email != "" && code != "" && password != ""
      && account.Some? && account.value.otp == code
      && account.value.otpExpiry.Some? && now <= account.value.otpExpiry.value
      && userFound
    ensures r == Err(UserMissing) <==>
      && email != "" && code != "" && password != ""
      && account.Some? && account.value.otp == code
      && account.value.otpExpiry.Some? && now <= account.value.otpExpiry.value
      && !userFound
    ensures r.Ok? ==>
      && r.value.otpExpiry.None?
      && r.value.otp == code
      && r.value == account.value.(otpExpiry := None)
  {
    if email == "" || code == "" || password == "" then Err(FieldsRequired)
    else if account.None? then Err(EmailUnknown)
    else if account.value.otp != code then Err(InvalidOrExpired)
    else if account.value.otpExpiry.None? then Err(InvalidOrExpired)
    else if now > account.value.otpExpiry.value then Err(InvalidOrExpired)
    else if !userFound then Err(UserMissing)
    else Ok(account.value.(otpExpiry := None))
  }

  /** The corrected reset agrees with the written one wherever the latter
      does not fail with a server error. */
  lemma ResetAgreesExceptServerError(email: string, code: string, password: string, account: Option<Profile>,
                                     userFound: bool, now: int)
    ensures ResetPasswordAsWritten(email, code, password, account, userFound, now) != Err(ResetServerError) ==>
      ResetPasswordAsWritten(email, code, password, account, userFound, now)
        == ResetPassword(email, code, password, account, userFound, now)
  {
  }

  /** At the expiry instant a code no longer verifies an account but still
      resets its password. */
  lemma ExpiryInstant(p: Profile, code: string, maxTry: Allowance, email: string, password: string)
    requires !p.isActive && p.otp == code && p.otpExpiry.Some?
    requires email != "" && code != "" && password != ""
    ensures Verify(p, Some(code), p.otpExpiry.value, maxTry).Err?
    ensures ResetPassword(email, code, password, Some(p), true, p.otpExpiry.value).Ok?
  {
  }

  /** A code issued for a reset resets the password for five minutes, once. */
  lemma ForgotThenReset(email: string, account: Option<Profile>, userFound: bool, newCode: int, now: int,
                        password: string, at: int, later: int)
    requires IsCodeNumber(newCode) && email != "" && password != "" && account.Some?
    ensures var p := ForgotPassword(email, account, newCode, now).value;
      && (ResetPassword(email, Str(newCode), password, Some(p), userFound, at).Ok? <==> at <= now + 300 && userFound)
      && (at <= now + 300 && userFound ==>
            ResetPassword(email, Str(newCode), password,
                          Some(ResetPassword(email, Str(newCode), password, Some(p), userFound, at).value),
                          userFound, later).Err?)
  {
    CodeNumberText(newCode);
  }

  /** Requesting or using a reset code keeps the code invariant. */
  lemma ResetKeepsWellFormed(email: string, code: string, password: string, account: Option<Profile>,
                             userFound: bool, now: int, newCode: int, maxTry: Allowance)
    requires IsCodeNumber(newCode) && account.Some? && WellFormed(account.value, maxTry)
    ensures ForgotPassword(email, account, newCode, now).Ok? ==> WellFormed(ForgotPassword(email, account, newCode, now).value, maxTry)
    ensures ResetPassword(email, code, password, account, userFound, now).Ok? ==>
      WellFormed(ResetPassword(email, code, password, account, userFound, now).value, maxTry)
  {
  }
}

=== FILE: decimal.dfy ===
/** Decimal renderings of integers, as Python's `str(n)` produces them. Used for
    the numeric one-time codes, which are drawn as integers and stored as text,
    and for the leading-digit test on birth years. */
module Decimal {

  predicate IsDigit(c: char) {
    '0' <= c <= '9'
  }

  predicate AllDigits(s: string) {
    forall i :: 0 <= i < |s| ==> IsDigit(s[i])
  }

  function DigitChar(d: nat): (c: char)
    requires d < 10
    ensures IsDigit(c)
  {
    "0123456789"[d]
  }

  function DigitValue(c: char): (d: nat)
    requires IsDigit(c)
    ensures d < 10
    ensures DigitChar(d) == c
  {
    (c as int - '0' as int) as nat
  }

  /** The digits of `n` in base ten, most significant first, without leading zeros. */
  function DecimalString(n: nat): (s: string)
    ensures |s| >= 1
    ensures AllDigits(s)
    decreases n
  {
    if n < 10 then [DigitChar(n)] else DecimalString(n / 10) + [DigitChar(n % 10)]
  }

  /** The value of a string of decimal digits. */
  function ParseDecimal(s: string): (n: nat)
    requires AllDigits(s)
    decreases |s|
  {
    if |s| == 0 then 0 else 10 * ParseDecimal(s[..|s| - 1]) + DigitValue(s[|s| - 1])
  }

  /** Python's `str` on an integer: a minus sign for negative values. */
  function Str(n: int): string {
    if n < 0 then "-" + DecimalString(-n) else DecimalString(n)
  }

  /** Rendering and parsing are inverse: the text of a number determines it. */
  lemma {:induction false} ParseDecimalString(n: nat)
    ensures ParseDecimal(DecimalString(n)) == n
    decreases n
  {
    if n >= 10 {
      var s := DecimalString(n);
      assert s[..|s| - 1] == DecimalString(n / 10);
      ParseDecimalString(n / 10);
    }
  }

  /** Distinct numbers have distinct renderings. */
  lemma DecimalStringInjective(a: nat, b: nat)
    requires DecimalString(a) == DecimalString(b)
    ensures a == b
  {
    ParseDecimalString(a);
    ParseDecimalString(b);
  }

  /** A number has exactly k digits when it lies in [10^(k-1), 10^k). */
  lemma {:induction false} DecimalLength(n: nat, k: nat)
    requires 1 <= k
    requires (if k == 1 then 0 else Pow10(k - 1)) <= n < Pow10(k)
    ensures |DecimalString(n)| == k
    decreases k
  {
    if k > 1 {
      DecimalLength(n / 10, k - 1);
    }
  }

  /** A four-digit number starts with its thousands digit. */
  lemma LeadingDigitOfFour(n: nat)
    requires 1000 <= n <= 9999
    ensures DecimalString(n)[0] == DigitChar(n / 1000)
  {
    var a := n / 10;
    var b := a / 10;
    var c := b / 10;
    assert c == n / 1000;
    assert DecimalString(b)[0] == DigitChar(c);
    assert DecimalString(a)[0] == DecimalString(b)[0];
    assert DecimalString(n)[0] == DecimalString(a)[0];
  }

  /** Ten to the power k. */
  function Pow10(k: nat): nat {
    if k == 0 then 1 else 10 * Pow10(k - 1)
  }
}

=== FILE: entities.dfy ===
/** The records of the rating application that the modelled operations read
    and write: the user profile and the rating comment. Timestamps are integer
    seconds; a nullable timestamp is an `Option<int>`. */
module Entities {
  import opened Results

  type ProfileId = int
  type CategoryId = int

  /** The running aggregate stored on a rated profile for one category. */
  datatype Aggregate = Aggregate(totalScore: int, commentCount: int)

  /** A user profile. `isActive` stands for both the profile's flag and the
      flag of the authentication record behind it: every modelled operation
      sets the two together. `maxOtpTry` is the remaining one-time-code
      regeneration allowance (a non-negative integer column) and `otpMaxOut`
      the end of a regeneration lockout. */
  datatype Profile = Profile(
    id: ProfileId,
    username: string,
    email: string,
    phoneNumber: string,
    isActive: bool,
    otp: string,
    otpExpiry: Option<int>,
    maxOtpTry: nat,
    otpMaxOut: Option<int>,
    categoryScores: map<CategoryId, Aggregate>,
    followers: set<ProfileId>,
    following: set<ProfileId>)

  /** A rating comment. New comments carry their scores in `categoryScores`;
      comments of the older format carry one `legacyCategory` (a required
      reference, 1 by default) and one `legacyScore` (0 by default) instead. */
  datatype Comment = Comment(
    author: ProfileId,
    target: ProfileId,
    content: string,
    categoryScores: map<CategoryId, int>,
    legacyCategory: CategoryId,
    legacyScore: nat,
    likes: set<ProfileId>,
    dislikes: set<ProfileId>)
}

=== FILE: follows.dfy ===
/** The follow toggle. Each profile stores whom it follows and who follows it
    as two separate relations, and the toggle writes both. */
module Follows {
  import opened Results
  import opened Entities

  /** The stored profiles by id. */
  type Store = map<ProfileId, Profile>

  datatype FollowError = TargetNotFound | NoProfile | SelfFollow
  datatype FollowAction = Followed | Unfollowed

  /** The two stored relations agree: b is in a's following exactly when a is
      in b's followers. */
  ghost predicate Mirrored(s: Store) {
    forall a, b :: a in s && b in s ==> (b in s[a].following <==> a in s[b].followers)
  }

  /** The follow relation as one set of (follower, followee) edges, read off
      the following side. */
  function Edges(s: Store): set<(ProfileId, ProfileId)> {
    set a, b | a in s && b in s[a].following && b in s :: (a, b)
  }

  /** Toggle by `me` on `target`: unfollow when target is in me's following,
      follow otherwise, writing me's following and target's followers. A
      self-follow is refused. */
  function ToggleFollow(s: Store, me: ProfileId, target: ProfileId): (r: Result<(Store, FollowAction), FollowError>)
    ensures target !in s ==> r == Err(TargetNotFound)
    ensures target in s && me !in s ==> r == Err(NoProfile)
    ensures target in s && me in s && me == target ==> r == Err(SelfFollow)
    ensures r.Ok? <==> target in s && me in s && me != target
    ensures r.Ok? ==>
      var (t, action) := r.value;
      && t.Keys == s.Keys
      && (action == Followed <==> target !in s[me].following)
      && (target in t[me].following <==> target !in s[me].following)
      && (me in t[target].followers <==> target in t[me].following)
      && (forall x :: x != target ==> (x in t[me].following <==> x in s[me].following))
      && (forall x :: x != me ==> (x in t[target].followers <==> x in s[target].followers))
      && t[me] == s[me].(following := t[me].following)
      && t[target] == s[target].(followers := t[target].followers)
      && (forall id :: id in s && id != me && id != target ==> t[id] == s[id])
  {
    if target !in s then Err(TargetNotFound)
    else if me !in s then Err(NoProfile)
    else if me == target then Err(SelfFollow)
    else if target in s[me].following then
      var t := s[me := s[me].(following := s[me].following - {target})];
      Ok((t[target := t[target].(followers := t[target].followers - {me})], Unfollowed))
    else
      var t := s[me := s[me].(following := s[me].following + {target})];
      Ok((t[target := t[target].(followers := t[target].followers + {me})], Followed))
  }

  /** The toggle keeps the two relations mirrored. */
  lemma ToggleKeepsMirrored(s: Store, me: ProfileId, target: ProfileId)
    requires Mirrored(s) && ToggleFollow(s, me, target).Ok?
    ensures Mirrored(ToggleFollow(s, me, target).value.0)
  {
    var t := ToggleFollow(s, me, target).value.0;
    forall a, b | a in t && b in t
      ensures b in t[a].following <==> a in t[b].followers
    {
      if a == me && b == target {
      } else if a == me {
        assert b in t[a].following <==> b in s[a].following;
        assert a in t[b].followers <==> a in s[b].followers;
      } else if b == target {
        assert b in t[a].following <==> b in s[a].following;
        assert a in t[b].followers <==> a in s[b].followers;
      } else {
        assert t[a].following == s[a].following;
        assert t[b].followers == s[b].followers;
      }
    }
  }

  /** On mirrored relations the toggle is its own inverse. */
  lemma ToggleTwice(s: Store, me: ProfileId, target: ProfileId)
    requires Mirrored(s) && ToggleFollow(s, me, target).Ok?
    ensures ToggleFollow(ToggleFollow(s, me, target).value.0, me, target).Ok?
    ensures ToggleFollow(ToggleFollow(s, me, target).value.0, me, target).value.0 == s
  {
    var t := ToggleFollow(s, me, target).value.0;
    var u := ToggleFollow(t, me, target).value.0;
    assert u.Keys == s.Keys;
    assert u[me].following == s[me].following;
    assert u[target].followers == s[target].followers by {
      assert me in s[target].followers <==> target in s[me].following;
    }
    assert u[me] == s[me];
    assert u[target] == s[target];
    forall id | id in s ensures u[id] == s[id] {
    }
  }

  /** The toggle flips exactly the edge (me, target) of the follow relation. */
  lemma ToggleFlipsOneEdge(s: Store, me: ProfileId, target: ProfileId)
    requires ToggleFollow(s, me, target).Ok?
    ensures var t := ToggleFollow(s, me, target).value.0;
      Edges(t) == if (me, target) in Edges(s) then Edges(s) - {(me, target)} else Edges(s) + {(me, target)}
  {
    var t := ToggleFollow(s, me, target).value.0;
    var flipped := if (me, target) in Edges(s) then Edges(s) - {(me, target)} else Edges(s) + {(me, target)};
    forall e | e in Edges(t) ensures e in flipped {
      var (a, b) := e;
      if a != me { assert t[a].following == s[a].following; }
    }
    forall e | e in flipped ensures e in Edges(t) {
      var (a, b) := e;
      if a != me { assert t[a].following == s[a].following; }
    }
  }

  /** A self-follow attempt changes nothing and is refused whenever the
      profile exists. */
  lemma SelfFollowRefused(s: Store, me: ProfileId)
    requires me in s
    ensures ToggleFollow(s, me, me) == Err(SelfFollow)
  {
  }
}

=== FILE: moderation.dfy ===
/** Validation of user inquiries and abuse reports. */
module Moderation {
  import opened Results
  import opened Entities

  // ---------------------------------------------------------------------------
  // Inquiries

  datatype Inquiry = Inquiry(user: ProfileId, subject: string, content: string)

  datatype InquiryError = EmptyField | FieldTooLong | UserInactive | OtpPending

  /** The characters Python's `str.strip()` removes (`str.isspace`). */
  predicate IsSpace(c: char) {
    || c == ' ' || c == '\t' || c == '\n' || c == '\r'
    || c == '\U{000B}' || c == '\U{000C}'
    || ('\U{001C}' <= c <= '\U{001F}')
    || c == '\U{0085}' || c == '\U{00A0}' || c == '\U{1680}'
    || ('\U{2000}' <= c <= '\U{200A}')
    || c == '\U{2028}' || c == '\U{2029}' || c == '\U{202F}' || c == '\U{205F}' || c == '\U{3000}'
  }

  predicate AllSpace(s: string) {
    forall i :: 0 <= i < |s| ==> IsSpace(s[i])
  }

  /** The number of whitespace characters `s` starts with. */
  function LeadingSpace(s: string): (n: nat)
    ensures n <= |s|
    ensures AllSpace(s[..n])
    ensures n == |s| || !IsSpace(s[n])
    decreases |s|
  {
    if s != "" && IsSpace(s[0]) then
      var n := LeadingSpace(s[1..]);
      LeadingStep(s, n);
      n + 1
    else 0
  }

  /** The number of whitespace characters `s` ends with. */
  function TrailingSpace(s: string): (n: nat)
    ensures n <= |s|
    ensures AllSpace(s[|s| - n..])
    ensures n == |s| || !IsSpace(s[|s| - n - 1])
    decreases |s|
  {
    if s != "" && IsSpace(s[|s| - 1]) then
      var t := s[..|s| - 1];
      var n := TrailingSpace(t);
      TrailingStep(s, n);
      n + 1
    else 0
  }

  lemma LeadingStep(s: string, n: nat)
    requires n < |s| && IsSpace(s[0]) && AllSpace(s[1..][..n])
    ensures AllSpace(s[..n + 1])
  {
    var a, b := s[..n + 1], s[1..][..n];
    forall k | 0 < k < |a| ensures IsSpace(a[k]) {
      assert a[k] == b[k - 1];
    }
  }

  lemma TrailingStep(s: string, n: nat)
    requires n < |s| && IsSpace(s[|s| - 1]) && AllSpace(s[..|s| - 1][|s| - 1 - n..])
    ensures AllSpace(s[|s| - (n + 1)..])
  {
    var a, b := s[|s| - (n + 1)..], s[..|s| - 1][|s| - 1 - n..];
    forall k | 0 <= k < n ensures IsSpace(a[k]) {
      assert a[k] == b[k];
    }
  }

  /** Python's `str.strip()`: the text between the leading and the trailing
      whitespace. */
  function Strip(s: string): (r: string)
    ensures |r| <= |s|
    ensures r == "" || (!IsSpace(r[0]) && !IsSpace(r[|r| - 1]))
    ensures var i := LeadingSpace(s);
      && i + |r| <= |s| && r == s[i..i + |r|]
      && AllSpace(s[..i]) && AllSpace(s[i + |r|..])
  {
    var i := LeadingSpace(s);
    var l := s[i..];
    var t := TrailingSpace(l);
    var j := |s| - t;
    SpaceAfterStrip(s, i, t);
    assert i < j ==> s[i..j][0] == s[i] && s[i..j][j - i - 1] == s[j - 1] == l[|l| - t - 1];
    s[i..j]
  }

  lemma SpaceAfterStrip(s: string, i: nat, t: nat)
    requires i <= |s| && t <= |s| - i
    requires AllSpace(s[i..][|s| - i - t..])
    ensures AllSpace(s[|s| - t..])
  {
    var a, b := s[|s| - t..], s[i..][|s| - i - t..];
    forall k | 0 <= k < t ensures IsSpace(a[k]) {
      assert a[k] == b[k];
    }
  }

  /** Stripping text that neither starts nor ends with whitespace keeps it. */
  lemma StripTrimmed(s: string)
    requires s == "" || (!IsSpace(s[0]) && !IsSpace(s[|s| - 1]))
    ensures Strip(s) == s
  {
  }

  /** Stripping is idempotent. */
  lemma StripIdempotent(s: string)
    ensures Strip(Strip(s)) == Strip(s)
  {
    StripTrimmed(Strip(s));
  }

  /** Whitespace-only text strips to nothing, and only it. */
  lemma StripEmpty(s: string)
    ensures Strip(s) == "" <==> AllSpace(s)
  {
    if Strip(s) == "" {
      StripEmptyOnlySpace(s);
    }
    if AllSpace(s) {
      SpaceStripsEmpty(s);
    }
  }

  lemma StripEmptyOnlySpace(s: string)
    requires Strip(s) == ""
    ensures AllSpace(s)
  {
    var i := LeadingSpace(s);
    assert i == |s|;
    var a := s[..i];
    assert AllSpace(a);
    forall k | 0 <= k < |s| ensures IsSpace(s[k]) {
      assert a[k] == s[k];
    }
  }

  lemma SpaceStripsEmpty(s: string)
    requires AllSpace(s)
    ensures Strip(s) == ""
  {
    var n := LeadingSpace(s);
    assert n == |s|;
    assert s[n..] == "";
    assert TrailingSpace("") == 0;
  }

  /** The inquiry model's validation: both fields non-empty and at most 255
      characters, the user's account active, and no unexpired code pending
      (an expiry equal to `now` does not count as pending). */
  function CleanInquiry(i: Inquiry, user: Profile, now: int): (r: Outcome<InquiryError>)
    ensures r.Pass? <==>
      && i.subject != "" && i.content != ""
      && |i.subject| <= 255 && |i.content| <= 255
      && user.isActive
      && (user.otpExpiry.None? || user.otpExpiry.value <= now)
    ensures (i.subject == "" || i.content == "") ==> r == Fail(EmptyField)
    ensures i.subject != "" && i.content != "" && (|i.subject| > 255 || |i.content| > 255) ==> r == Fail(FieldTooLong)
    ensures i.subject != "" && i.content != "" && |i.subject| <= 255 && |i.content| <= 255 && !user.isActive
      ==> r == Fail(UserInactive)
    ensures i.subject != "" && i.content != "" && |i.subject| <= 255 && |i.content| <= 255 && user.isActive
      && user.otpExpiry.Some? && user.otpExpiry.value > now
      ==> r == Fail(OtpPending)
  {
    if i.subject == "" || i.content == "" then Fail(EmptyField)
    else if |i.subject| > 255 || |i.content| > 255 then Fail(FieldTooLong)
    else if !user.isActive then Fail(UserInactive)
    else if user.otpExpiry.Some? && user.otpExpiry.value > now then Fail(OtpPending)
    else Pass
  }

  /** Saving an inquiry stores subject and content stripped. */
  function SaveInquiry(i: Inquiry): (r: Inquiry)
    ensures r.user == i.user
    ensures |r.subject| <= |i.subject| && |r.content| <= |i.content|
    ensures r.subject == Strip(i.subject) && r.content == Strip(i.content)
  {
    i.(subject := Strip(i.subject), content := Strip(i.content))
  }

  /** A validated inquiry is stored within the length limit, but the emptiness
      test runs on the unstripped text: a whitespace-only subject passes and
      is stored empty. */
  lemma SavedInquiryFields(i: Inquiry, user: Profile, now: int)
    requires CleanInquiry(i, user, now).Pass?
    ensures |SaveInquiry(i).subject| <= 255 && |SaveInquiry(i).content| <= 255
    ensures SaveInquiry(i).subject == "" <==> AllSpace(i.subject)
  {
    StripEmpty(i.subject);
  }

  lemma InquiryAccepted(i: Inquiry, user: Profile, now: int)
    requires 0 < |i.subject| <= 255 && 0 < |i.content| <= 255
    requires user.isActive && user.otpExpiry.None?
    ensures CleanInquiry(i, user, now).Pass?
  {
  }

  lemma WhitespaceSubjectStoredEmpty(content: string, user: Profile, now: int)
    requires 0 < |content| <= 255
    requires user.isActive && user.otpExpiry.None?
    ensures CleanInquiry(Inquiry(user.id, " ", content), user, now).Pass?
    ensures SaveInquiry(Inquiry(user.id, " ", content)).subject == ""
  {
    var i := Inquiry(user.id, " ", content);
    assert |i.subject| == 1 && i.subject[0] == ' ';
    InquiryAccepted(i, user, now);
    SpaceStripsEmpty(i.subject);
  }

  // ---------------------------------------------------------------------------
  // Reports

  datatype ReportType = CommentReport | ProfileReport

  /** A report as submitted: its type, the comment or profile reported (ids),
      and the reason. */
  datatype ReportData = ReportData(
    reportType: ReportType,
    reportedComment: Option<int>,
    reportedProfile: Option<ProfileId>,
    reason: string)

  datatype ReportError = NoTarget | TwoTargets | CommentIdRequired | ProfileIdRequired

  /** The report model's validation: exactly one of comment and profile. */
  function CleanReport(d: ReportData): (r: Outcome<ReportError>)
    ensures r.Pass? <==> d.reportedComment.Some? != d.reportedProfile.Some?
    ensures d.reportedComment.None? && d.reportedProfile.None? ==> r == Fail(NoTarget)
  {
    if d.reportedComment.None? && d.reportedProfile.None? then Fail(NoTarget)
    else if d.reportedComment.Some? && d.reportedProfile.Some? then Fail(TwoTargets)
    else Pass
  }

  /** The report serializer's validation: a comment report needs a comment,
      a profile report a profile; accepted data is returned unchanged. */
  function ValidateReport(d: ReportData): (r: Result<ReportData, ReportError>)
    ensures r.Ok? ==> r.value == d
    ensures r.Ok? <==>
      (d.reportType == CommentReport ==> d.reportedComment.Some?) &&
      (d.reportType == ProfileReport ==> d.reportedProfile.Some?)
    ensures d.reportType == CommentReport && d.reportedComment.None? ==> r == Err(CommentIdRequired)
    ensures d.reportType == ProfileReport && d.reportedProfile.None? ==> r == Err(ProfileIdRequired)
  {
    if d.reportType == CommentReport && d.reportedComment.None? then Err(CommentIdRequired)
    else if d.reportType == ProfileReport && d.reportedProfile.None? then Err(ProfileIdRequired)
    else Ok(d)
  }

  /** The serializer's check implies the model's when the report names only
      the target of its type, and the model's implies the serializer's when
      the one target matches the type. */
  lemma ReportChecksAgree(d: ReportData)
    ensures (&& ValidateReport(d).Ok?
             && (d.reportType == CommentReport ==> d.reportedProfile.None?)
             && (d.reportType == ProfileReport ==> d.reportedComment.None?))
            ==> CleanReport(d).Pass?
    ensures (CleanReport(d).Pass? && (d.reportType == CommentReport <==> d.reportedComment.Some?))
            ==> ValidateReport(d).Ok?
  {
  }

  /** The serializer accepts a comment report that also names a profile,
      which the model's validation refuses. */
  lemma SerializerAcceptsTwoTargets()
    ensures ValidateReport(ReportData(CommentReport, Some(1), Some(2), "spam")).Ok?
    ensures CleanReport(ReportData(CommentReport, Some(1), Some(2), "spam")) == Fail(TwoTargets)
  {
  }
}

=== FILE: otp.dfy ===
/** The one-time-code lifecycle of a profile: issuing a code, verifying it to
    activate the account, and regenerating it under a retry allowance with a
    one-hour lockout. The clock is the parameter `now` (seconds) and the
    configured allowance `MAX_OTP_TRY` is the positive parameter `maxTry`. */
module Otp {
  import opened Results
  import opened Entities
  import opened Decimal

  /** A code is valid for five minutes. */
  const OtpLifetime: int := 300
  /** An exhausted allowance locks regeneration for one hour. */
  const LockoutDuration: int := 3600

  /** The configured regeneration allowance (`MAX_OTP_TRY`), at least 1. */
  type Allowance = n: nat | n >= 1 witness 1

  datatype OtpError = VerificationFailed | LockedOut | ServerError

  /** Six decimal digits; leading zeros allowed. */
  predicate IsSixDigitCode(code: string) {
    |code| == 6 && AllDigits(code)
  }

  /** A code drawn as an integer in [100000, 999999]. */
  predicate IsCodeNumber(n: int) {
    100000 <= n <= 999999
  }

  /** What every reachable profile keeps: the allowance never exceeds the
      configured maximum, and an exhausted allowance has a lockout end. */
  predicate WellFormed(p: Profile, maxTry: Allowance) {
    p.maxOtpTry <= maxTry && (p.maxOtpTry == 0 ==> p.otpMaxOut.Some?)
  }

  /** Regeneration is locked: the allowance is exhausted and the lockout has
      not ended. */
  predicate Locked(p: Profile, now: int) {
    p.maxOtpTry == 0 && p.otpMaxOut.Some? && now < p.otpMaxOut.value
  }

  /** The text stored for a numeric code is six digits. */
  lemma CodeNumberText(n: int)
    requires IsCodeNumber(n)
    ensures IsSixDigitCode(Str(n))
  {
    assert Pow10(5) == 100000 && Pow10(6) == 1000000;
    DecimalLength(n, 6);
  }

  /** Issues a fresh code, valid five minutes; returns the profile, the code
      and its expiry. Nothing but the code and the expiry changes. */
  function GenerateOtp(p: Profile, code: string, now: int): (r: (Profile, string, int))
    requires IsSixDigitCode(code)
    ensures r.1 == code && r.2 == now + 300
    ensures r.0.otp == r.1 && r.0.otpExpiry == Some(r.2)
    ensures r.0 == p.(otp := r.0.otp, otpExpiry := r.0.otpExpiry)
  {
    (p.(otp := code, otpExpiry := Some(now + OtpLifetime)), code, now + OtpLifetime)
  }

  /** Account verification. It succeeds only for an inactive profile whose
      stored code equals the submitted one and whose code has not expired
      (`now` strictly before the expiry); it then activates the account,
      clears the expiry and the lockout and restores the allowance. A failed
      verification changes nothing. */
  function Verify(p: Profile, submitted: Option<string>, now: int, maxTry: Allowance): (r: Result<Profile, OtpError>)
    ensures r.Ok? <==> !p.isActive && submitted == Some(p.otp) && p.otpExpiry.Some? && now < p.otpExpiry.value
    ensures r.Err? ==> r.error == VerificationFailed
    ensures r.Ok? ==>
      && r.value.isActive
      && r.value.otpExpiry.None?
      && r.value.maxOtpTry == maxTry
      && r.value.otpMaxOut.None?
      && r.value == p.(isActive := true, otpExpiry := None, maxOtpTry := maxTry, otpMaxOut := None)
  {
    if !p.isActive && submitted == Some(p.otp) && p.otpExpiry.Some? && now < p.otpExpiry.value then
      Ok(p.(isActive := true, otpExpiry := None, maxOtpTry := maxTry, otpMaxOut := None))
    else
      Err(VerificationFailed)
  }

  /** Code regeneration. Refused while locked. Otherwise a new code valid five
      minutes is stored and the allowance c moves on: c = 1 exhausts it and
      starts a one-hour lockout; c = 0 (a lockout that has ended) restores the
      full allowance and leaves the old lockout end in place; any other c
      decrements and clears the lockout. An exhausted allowance without a
      lockout end makes the time comparison fail with a server error. */
  function Regenerate(p: Profile, newCode: int, now: int, maxTry: Allowance): (r: Result<Profile, OtpError>)
    requires IsCodeNumber(newCode)
    ensures r == Err(LockedOut) <==> Locked(p, now)
    ensures r == Err(ServerError) <==> p.maxOtpTry == 0 && p.otpMaxOut.None?
    ensures r.Ok? <==> !Locked(p, now) && !(p.maxOtpTry == 0 && p.otpMaxOut.None?)
    ensures r.Ok? ==>
      && r.value.otp == Str(newCode)
      && IsSixDigitCode(r.value.otp)
      && r.value.otpExpiry == Some(now + 300)
      && r.value == p.(otp := r.value.otp, otpExpiry := r.value.otpExpiry,
                       maxOtpTry := r.value.maxOtpTry, otpMaxOut := r.value.otpMaxOut)
    ensures r.Ok? && p.maxOtpTry == 1 ==> r.value.maxOtpTry == 0 && r.value.otpMaxOut == Some(now + 3600)
    ensures r.Ok? && p.maxOtpTry == 0 ==> r.value.maxOtpTry == maxTry && r.value.otpMaxOut == p.otpMaxOut
    ensures r.Ok? && p.maxOtpTry > 1 ==> r.value.maxOtpTry == p.maxOtpTry - 1 && r.value.otpMaxOut.None?
  {
    if p.maxOtpTry == 0 && p.otpMaxOut.None? then Err(ServerError)
    else if p.maxOtpTry == 0 && now < p.otpMaxOut.value then Err(LockedOut)
    else
      CodeNumberText(newCode);
      var remaining := p.maxOtpTry - 1;
      var q := p.(otp := Str(newCode), otpExpiry := Some(now + OtpLifetime));
      if remaining == 0 then Ok(q.(maxOtpTry := 0, otpMaxOut := Some(now + LockoutDuration)))
      else if remaining == -1 then Ok(q.(maxOtpTry := maxTry))
      else Ok(q.(maxOtpTry := remaining, otpMaxOut := None))
  }

  // ---------------------------------------------------------------------------
  // Invariant and consequences

  lemma GenerateKeepsWellFormed(p: Profile, code: string, now: int, maxTry: Allowance)
    requires IsSixDigitCode(code) && WellFormed(p, maxTry)
    ensures WellFormed(GenerateOtp(p, code, now).0, maxTry)
  {
  }

  lemma VerifyKeepsWellFormed(p: Profile, submitted: Option<string>, now: int, maxTry: Allowance)
    requires WellFormed(p, maxTry) && Verify(p, submitted, now, maxTry).Ok?
    ensures WellFormed(Verify(p, submitted, now, maxTry).value, maxTry)
  {
  }

  /** Regeneration keeps the invariant, and from a well-formed profile it is
      refused only by a lockout, never by a server error. */
  lemma RegenerateKeepsWellFormed(p: Profile, newCode: int, now: int, maxTry: Allowance)
    requires IsCodeNumber(newCode) && WellFormed(p, maxTry)
    ensures Regenerate(p, newCode, now, maxTry) != Err(ServerError)
    ensures Regenerate(p, newCode, now, maxTry).Err? <==> Locked(p, now)
    ensures Regenerate(p, newCode, now, maxTry).Ok? ==> WellFormed(Regenerate(p, newCode, now, maxTry).value, maxTry)
  {
  }

  /** Once verification succeeded the account is active, so a second
      verification fails, whatever code or time is submitted. */
  lemma VerifyOnce(p: Profile, submitted: Option<string>, now: int, maxTry: Allowance, again: Option<string>, later: int)
    requires Verify(p, submitted, now, maxTry).Ok?
    ensures Verify(Verify(p, submitted, now, maxTry).value, again, later, maxTry) == Err(VerificationFailed)
  {
  }

  /** A freshly issued code verifies an inactive account exactly until five
      minutes have passed. */
  lemma GeneratedCodeVerifies(p: Profile, code: string, now: int, at: int, maxTry: Allowance)
    requires IsSixDigitCode(code) && !p.isActive
    ensures Verify(GenerateOtp(p, code, now).0, Some(code), at, maxTry).Ok? <==> at < now + 300
  {
  }

  /** The same for a regenerated code. */
  lemma RegeneratedCodeVerifies(p: Profile, newCode: int, now: int, at: int, maxTry: Allowance)
    requires IsCodeNumber(newCode) && !p.isActive && Regenerate(p, newCode, now, maxTry).Ok?
    ensures Verify(Regenerate(p, newCode, now, maxTry).value, Some(Str(newCode)), at, maxTry).Ok? <==> at < now + 300
  {
  }

  /** A regeneration replaces the code: the code of an earlier regeneration
      with a different number no longer verifies. */
  lemma RegenerateReplacesCode(p: Profile, first: int, second: int, now: int, later: int, at: int, maxTry: Allowance)
    requires IsCodeNumber(first) && IsCodeNumber(second) && first != second
    requires Regenerate(p, first, now, maxTry).Ok?
    requires Regenerate(Regenerate(p, first, now, maxTry).value, second, later, maxTry).Ok?
    ensures Verify(Regenerate(Regenerate(p, first, now, maxTry).value, second, later, maxTry).value,
                   Some(Str(first)), at, maxTry) == Err(VerificationFailed)
  {
    if Str(first) == Str(second) {
      DecimalStringInjective(first, second);
    }
  }

  /** n regenerations at the same instant, stopping at the first refusal. */
  function RegenerateTimes(p: Profile, newCode: int, now: int, maxTry: Allowance, n: nat): (r: Result<Profile, OtpError>)
    requires IsCodeNumber(newCode)
    decreases n
  {
    if n == 0 then Ok(p)
    else
      match Regenerate(p, newCode, now, maxTry)
      case Err(e) => Err(e)
      case Ok(q) => RegenerateTimes(q, newCode, now, maxTry, n - 1)
  }

  /** With c regenerations left, c regenerations at one instant all succeed
      and exhaust the allowance, starting a one-hour lockout; the next
      regeneration at that instant is refused. */
  lemma {:induction false} RegenerateExhausts(p: Profile, newCode: int, now: int, maxTry: Allowance)
    requires IsCodeNumber(newCode) && WellFormed(p, maxTry) && p.maxOtpTry >= 1
    ensures RegenerateTimes(p, newCode, now, maxTry, p.maxOtpTry).Ok?
    ensures var q := RegenerateTimes(p, newCode, now, maxTry, p.maxOtpTry).value;
      q.maxOtpTry == 0 && q.otpMaxOut == Some(now + 3600) && Regenerate(q, newCode, now, maxTry) == Err(LockedOut)
    decreases p.maxOtpTry
  {
    var q := Regenerate(p, newCode, now, maxTry);
    assert q.Ok?;
    if p.maxOtpTry > 1 {
      RegenerateExhausts(q.value, newCode, now, maxTry);
    }
  }

  /** When a lockout has ended, regeneration restores the full allowance but
      leaves the ended lockout in place. */
  lemma LockoutEnds(p: Profile, newCode: int, now: int, maxTry: Allowance)
    requires IsCodeNumber(newCode) && WellFormed(p, maxTry) && p.maxOtpTry == 0
    requires now >= p.otpMaxOut.value
    ensures Regenerate(p, newCode, now, maxTry).Ok?
    ensures Regenerate(p, newCode, now, maxTry).value.maxOtpTry == maxTry
    ensures Regenerate(p, newCode, now, maxTry).value.otpMaxOut == p.otpMaxOut
  {
  }
}

=== FILE: ratings.dfy ===
/** Rating aggregation: the submission of a categorised rating comment, which
    updates running totals stored on the rated profile, and the recomputation
    of per-category statistics and the overall average from the comments. */
module Ratings {
  import opened Results
  import opened Entities
  import opened Sums

  /** A submitted score as it arrives in the request body: an integer, or any
      other JSON value. */
  datatype ScoreValue = IntScore(n: int) | NotAnInt

  /** The `category_scores` field of the request: a JSON object, or anything
      else. An absent field reads as the empty object. */
  datatype ScorePayload = Dict(entries: map<CategoryId, ScoreValue>) | NotADict

  datatype RatingError =
    | NotAuthenticated
    | ProfileNotFound
    | ContentRequired
    | ScoresNotADict
    | MissingCategory(id: CategoryId)
    | ScoreOutOfRange

  /** The category ids every submission must score, checked in this order. */
  const RequiredCategories: seq<CategoryId> := [1, 2, 3]

  predicate ValidScore(v: ScoreValue) {
    v.IntScore? && 1 <= v.n <= 10
  }

  /** The first required id the submission does not score, if any. */
  function FirstMissing(required: seq<CategoryId>, entries: map<CategoryId, ScoreValue>): (r: Option<CategoryId>)
    ensures r.None? <==> forall i :: 0 <= i < |required| ==> required[i] in entries
    ensures r.Some? ==>
              exists i ::
                && 0 <= i < |required|
                && required[i] == r.value
                && r.value !in entries
                && forall j :: 0 <= j < i ==> required[j] in entries
  {
    if |required| == 0 then None
    else if required[0] !in entries then Some(required[0])
    else
      var r := FirstMissing(required[1..], entries);
      assert r.None? ==> forall i :: 1 <= i < |required| ==> required[i] in entries by {
        if r.None? {
          forall i | 1 <= i < |required| ensures required[i] in entries {
            assert required[i] == required[1..][i - 1];
          }
        }
      }
      if r.Some? then
        var i :| 0 <= i < |required[1..]| && required[1..][i] == r.value
          && r.value !in entries && forall j :: 0 <= j < i ==> required[1..][j] in entries;
        assert required[i + 1] == r.value;
        assert forall j :: 0 <= j < i + 1 ==> required[j] in entries by {
          forall j | 0 <= j < i + 1 ensures required[j] in entries {
            if j > 0 { assert required[j] == required[1..][j - 1]; }
          }
        }
        r
      else r
  }

  /** The integer scores of a validated submission. */
  function IntScores(entries: map<CategoryId, ScoreValue>): (r: map<CategoryId, int>)
    requires forall k :: k in entries ==> entries[k].IntScore?
    ensures r.Keys == entries.Keys
    ensures forall k :: k in entries ==> r[k] == entries[k].n
  {
    map k | k in entries :: entries[k].n
  }

  /** The stored aggregate of a category, starting from (0, 0) when absent. */
  function Prior(p: Profile, k: CategoryId): Aggregate {
    if k in p.categoryScores then p.categoryScores[k] else Aggregate(0, 0)
  }

  /** Every check a submission must pass before anything is written. */
  predicate Accepted(author: Option<ProfileId>, target: Option<Profile>, content: string, payload: ScorePayload) {
    && author.Some?
    && target.Some?
    && content != ""
    && payload.Dict?
    && (forall i :: 0 <= i < |RequiredCategories| ==> RequiredCategories[i] in payload.entries)
    && (forall k :: k in payload.entries ==> ValidScore(payload.entries[k]))
  }

  /** Adds one submission to the running totals of a profile. */
  function AddToTotals(totals: map<CategoryId, Aggregate>, scores: map<CategoryId, int>): map<CategoryId, Aggregate> {
    map k | k in totals.Keys + scores.Keys ::
      if k in scores then
        var prior := if k in totals then totals[k] else Aggregate(0, 0);
        Aggregate(prior.totalScore + scores[k], prior.commentCount + 1)
      else totals[k]
  }

  /** Submission of a rating comment by `author` on `target`. Every check runs
      before the profile is written, so a rejected submission changes nothing.
      On success the rated profile and the new comment are returned. */
  function SubmitRating(author: Option<ProfileId>, target: Option<Profile>, content: string, payload: ScorePayload)
    : (r: Result<(Profile, Comment), RatingError>)
    ensures r.Ok? <==> Accepted(author, target, content, payload)
    ensures author.None? ==> r == Err(NotAuthenticated)
    ensures author.Some? && target.None? ==> r == Err(ProfileNotFound)
    ensures author.Some? && target.Some? && content == "" ==> r == Err(ContentRequired)
    ensures author.Some? && target.Some? && content != "" && payload.NotADict? ==> r == Err(ScoresNotADict)
    ensures author.Some? && target.Some? && content != "" && payload.Dict?
      && FirstMissing(RequiredCategories, payload.entries).Some?
      ==> r == Err(MissingCategory(FirstMissing(RequiredCategories, payload.entries).value))
    ensures author.Some? && target.Some? && content != "" && payload.Dict?
      && (forall i :: 0 <= i < |RequiredCategories| ==> RequiredCategories[i] in payload.entries)
      && (exists k :: k in payload.entries && !ValidScore(payload.entries[k]))
      ==> r == Err(ScoreOutOfRange)
    ensures r.Ok? ==>
      var (p, c) := r.value;
      // only the rated profile's aggregates change
      && p == target.value.(categoryScores := p.categoryScores)
      && p.categoryScores.Keys == target.value.categoryScores.Keys + payload.entries.Keys
      && (forall k :: k in payload.entries ==>
            p.categoryScores[k] == Aggregate(Prior(target.value, k).totalScore + payload.entries[k].n,
                                             Prior(target.value, k).commentCount + 1))
      && (forall k :: k in target.value.categoryScores && k !in payload.entries ==>
            p.categoryScores[k] == target.value.categoryScores[k])
      // the comment records exactly the submitted scores
      && c.author == author.value && c.target == target.value.id && c.content == content
      && c.categoryScores.Keys == payload.entries.Keys
      && (forall k :: k in payload.entries ==> c.categoryScores[k] == payload.entries[k].n)
      && c.likes == {} && c.dislikes == {}
  {
    if author.None? then Err(NotAuthenticated)
    else if target.None? then Err(ProfileNotFound)
    else if content == "" then Err(ContentRequired)
    else if payload.NotADict? then Err(ScoresNotADict)
    else
      var missing := FirstMissing(RequiredCategories, payload.entries);
      if missing.Some? then Err(MissingCategory(missing.value))
      else if !(forall k :: k in payload.entries ==> ValidScore(payload.entries[k])) then Err(ScoreOutOfRange)
      else
        var scores := IntScores(payload.entries);
        var t := target.value;
        var p := t.(categoryScores := AddToTotals(t.categoryScores, scores));
        var c := Comment(author.value, t.id, content, scores, 1, 0, {}, {});
        Ok((p, c))
  }

  // ---------------------------------------------------------------------------
  // Recomputation from the comments

  /** Per-category tally of a recomputation. */
  datatype Stat = Stat(score: int, count: int)

  /** A category entry of the statistics: tally and mean. */
  datatype CategoryStat = CategoryStat(score: int, count: int, avgScore: real)

  /** The mean of an entry is its score per comment, and 0 without comments. */
  predicate IsMean(s: CategoryStat) {
    if s.count > 0 then s.avgScore * (s.count as real) == s.score as real else s.avgScore == 0.0
  }

  /** The scores a comment contributes to the recomputation: its score map
      when non-empty, otherwise (older format) its single category and score,
      and nothing when that score is 0. */
  function Contribution(c: Comment): (r: map<CategoryId, int>)
    ensures c.categoryScores != map[] ==> r == c.categoryScores
    ensures c.categoryScores == map[] ==> (r == map[] <==> c.legacyScore == 0)
    ensures c.categoryScores == map[] && c.legacyScore != 0 ==> r == map[c.legacyCategory := c.legacyScore as int]
  {
    if c.categoryScores != map[] then c.categoryScores
    else if c.legacyScore != 0 then
      var r := map[c.legacyCategory := c.legacyScore as int];
      assert c.legacyCategory in r;
      r
    else map[]
  }

  /** Adds one comment's scores to the tallies of the known categories;
      ids that are not known categories are ignored. */
  function AddContribution(stats: map<CategoryId, Stat>, scores: map<CategoryId, int>): (r: map<CategoryId, Stat>)
    ensures r.Keys == stats.Keys
  {
    map k | k in stats :: if k in scores then Stat(stats[k].score + scores[k], stats[k].count + 1) else stats[k]
  }

  /** The tallies of all known categories over a profile's comments. */
  function Tally(categories: set<CategoryId>, comments: seq<Comment>): (r: map<CategoryId, Stat>)
    ensures r.Keys == categories
    decreases |comments|
  {
    if |comments| == 0 then map k | k in categories :: Stat(0, 0)
    else AddContribution(Tally(categories, comments[..|comments| - 1]), Contribution(comments[|comments| - 1]))
  }

  /** Mean of one category: score / count, and 0 without comments. */
  function AvgScore(s: Stat): (r: real)
    ensures s.count > 0 ==> r * (s.count as real) == s.score as real
    ensures s.count == 0 ==> r == 0.0
  {
    if s.count > 0 then DivideTimes(s.score as real, s.count as real); (s.score as real) / (s.count as real) else 0.0
  }

  /** The per-category statistics: every known category, and nothing else,
      with its tally and the mean score per comment. */
  function CategoryCommentStats(categories: set<CategoryId>, comments: seq<Comment>): (r: map<CategoryId, CategoryStat>)
    ensures r.Keys == categories
    ensures forall k :: k in r ==>
      && r[k].score == Tally(categories, comments)[k].score
      && r[k].count == Tally(categories, comments)[k].count
      && IsMean(r[k])
  {
    StatsOf(Tally(categories, comments))
  }

  /** Each tally together with its mean. */
  function StatsOf(t: map<CategoryId, Stat>): (r: map<CategoryId, CategoryStat>)
    ensures r.Keys == t.Keys
    ensures forall k :: k in r ==> r[k].score == t[k].score && r[k].count == t[k].count && IsMean(r[k])
  {
    map k | k in t :: CategoryStat(t[k].score, t[k].count, AvgScore(t[k]))
  }

  /** The per-category means of the statistics. */
  function CategoryMeans(stats: map<CategoryId, CategoryStat>): (r: map<CategoryId, real>)
    ensures r.Keys == stats.Keys
  {
    map k | k in stats :: stats[k].avgScore
  }

  /** The overall average: the unweighted mean of the per-category means over
      all known categories, untouched ones included with mean 0. */
  ghost function UserAverageScore(categories: set<CategoryId>, comments: seq<Comment>): (r: real)
    ensures categories == {} ==> r == 0.0
    ensures categories != {} ==> r == Sum(CategoryMeans(CategoryCommentStats(categories, comments))) / (|categories| as real)
  {
    var means := CategoryMeans(CategoryCommentStats(categories, comments));
    assert |means| == |categories| by { assert means.Keys == categories; }
    Mean(means)
  }

  // ---------------------------------------------------------------------------
  // Independent description of the tallies

  /** Indices of the comments that score category k. */
  function ScoringIndices(comments: seq<Comment>, k: CategoryId): set<int> {
    set i | 0 <= i < |comments| && k in Contribution(comments[i])
  }

  /** Sum of the scores the comments give category k. */
  function ScoreOf(comments: seq<Comment>, k: CategoryId): int
    decreases |comments|
  {
    if |comments| == 0 then 0
    else
      var last := Contribution(comments[|comments| - 1]);
      ScoreOf(comments[..|comments| - 1], k) + (if k in last then last[k] else 0)
  }

  /** A known category's tally counts the comments that score it and sums
      their scores. */
  lemma {:induction false} TallyCountsScoringComments(categories: set<CategoryId>, comments: seq<Comment>, k: CategoryId)
    requires k in categories
    ensures Tally(categories, comments)[k] == Stat(ScoreOf(comments, k), |ScoringIndices(comments, k)|)
    decreases |comments|
  {
    if |comments| == 0 {
      assert ScoringIndices(comments, k) == {};
    } else {
      var n := |comments| - 1;
      TallyCountsScoringComments(categories, comments[..n], k);
      ScoringIndicesStep(comments, k);
    }
  }

  /** The comments scoring k are those of the prefix, plus the last one when it scores k. */
  lemma ScoringIndicesStep(comments: seq<Comment>, k: CategoryId)
    requires |comments| > 0
    ensures var n := |comments| - 1;
      |ScoringIndices(comments, k)|
        == |ScoringIndices(comments[..n], k)| + (if k in Contribution(comments[n]) then 1 else 0)
  {
    var n := |comments| - 1;
    var prefix := comments[..n];
    var before := ScoringIndices(prefix, k);
    assert forall i :: 0 <= i < n ==> prefix[i] == comments[i];
    if k in Contribution(comments[n]) {
      assert ScoringIndices(comments, k) == before + {n};
      assert n !in before;
    } else {
      assert ScoringIndices(comments, k) == before;
    }
  }


  /** Ids that are not known categories never appear in the statistics, even
      when an accepted submission stored a running total for them. */
  lemma UnknownCategoryDropped(author: Option<ProfileId>, target: Option<Profile>, content: string,
                               payload: ScorePayload, categories: set<CategoryId>, comments: seq<Comment>, k: CategoryId)
    requires Accepted(author, target, content, payload)
    requires k in payload.entries && k !in categories
    ensures k in SubmitRating(author, target, content, payload).value.0.categoryScores
    ensures k !in CategoryCommentStats(categories, comments + [SubmitRating(author, target, content, payload).value.1])
  {
  }

  // ---------------------------------------------------------------------------
  // Running totals versus recomputation

  /** For every known category the profile's running aggregate equals the
      tally recomputed from its comments. */
  ghost predicate TotalsAgree(p: Profile, categories: set<CategoryId>, comments: seq<Comment>) {
    forall k :: k in categories ==>
      Tally(categories, comments)[k] == Stat(Prior(p, k).totalScore, Prior(p, k).commentCount)
  }

  /** A profile without aggregates and without comments agrees trivially. */
  lemma FreshProfileAgrees(p: Profile, categories: set<CategoryId>)
    requires p.categoryScores == map[]
    ensures TotalsAgree(p, categories, [])
  {
  }

  /** An accepted submission keeps the running totals equal to the
      recomputation once its comment is added to the profile's comments. */
  lemma SubmitKeepsTotalsAgreeing(author: Option<ProfileId>, target: Option<Profile>, content: string,
                                  payload: ScorePayload, categories: set<CategoryId>, comments: seq<Comment>)
    requires Accepted(author, target, content, payload)
    requires TotalsAgree(target.value, categories, comments)
    ensures var (p, c) := SubmitRating(author, target, content, payload).value;
      TotalsAgree(p, categories, comments + [c])
  {
    var (p, c) := SubmitRating(author, target, content, payload).value;
    var all := comments + [c];
    assert all[..|all| - 1] == comments;
    assert 1 in payload.entries by { assert RequiredCategories[0] == 1; }
    assert Contribution(c) == c.categoryScores;
    forall k | k in categories
      ensures Tally(categories, all)[k] == Stat(Prior(p, k).totalScore, Prior(p, k).commentCount)
    {
    }
  }

  // ---------------------------------------------------------------------------
  // Bounds and the worked example

  /** Comments whose contributed scores all lie in [1, 10]. */
  ghost predicate ScoresInRange(comments: seq<Comment>) {
    forall i, k :: 0 <= i < |comments| && k in Contribution(comments[i]) ==> 1 <= Contribution(comments[i])[k] <= 10
  }

  lemma {:induction false} TallyBounds(categories: set<CategoryId>, comments: seq<Comment>)
    requires ScoresInRange(comments)
    ensures forall k :: k in categories ==>
      var s := Tally(categories, comments)[k]; 0 <= s.count && s.count <= s.score <= 10 * s.count
    decreases |comments|
  {
    if |comments| > 0 {
      var n := |comments| - 1;
      assert ScoresInRange(comments[..n]) by {
        assert forall i :: 0 <= i < n ==> comments[..n][i] == comments[i];
      }
      TallyBounds(categories, comments[..n]);
    }
  }

  /** With scores in [1, 10] every category mean lies in [0, 10], in [1, 10]
      once the category has a comment, and so does the overall average. */
  lemma AverageInRange(categories: set<CategoryId>, comments: seq<Comment>)
    requires ScoresInRange(comments)
    ensures forall k :: k in categories ==>
      var s := CategoryCommentStats(categories, comments)[k];
      0.0 <= s.avgScore <= 10.0 && (s.count > 0 ==> 1.0 <= s.avgScore)
    ensures 0.0 <= UserAverageScore(categories, comments) <= 10.0
  {
    CategoryMeansInRange(categories, comments);
    var means := CategoryMeans(CategoryCommentStats(categories, comments));
    if means != map[] {
      MeanBounds(means, 0.0, 10.0);
    }
  }

  /** Each category's mean of in-range scores lies in [1, 10], and is 0 without comments. */
  lemma CategoryMeansInRange(categories: set<CategoryId>, comments: seq<Comment>)
    requires ScoresInRange(comments)
    ensures forall k :: k in categories ==>
      var s := CategoryCommentStats(categories, comments)[k];
      0.0 <= s.avgScore <= 10.0 && (s.count > 0 ==> 1.0 <= s.avgScore)
  {
    TallyBounds(categories, comments);
    var stats := CategoryCommentStats(categories, comments);
    forall k | k in categories
      ensures 0.0 <= stats[k].avgScore <= 10.0 && (stats[k].count > 0 ==> 1.0 <= stats[k].avgScore)
    {
      var s := Tally(categories, comments)[k];
      if s.count > 0 {
        DivideBounds(s.score as real, s.count as real, 1.0, 10.0);
      }
    }
  }


  /** Two comments scoring category 1 with 8 and 10. */
  function ExampleComments(): seq<Comment> {
    [Comment(1, 2, "a", map[1 := 8], 1, 0, {}, {}), Comment(3, 2, "b", map[1 := 10], 1, 0, {}, {})]
  }

  lemma ExampleTally()
    ensures Tally({1, 2}, ExampleComments()) == map[1 := Stat(18, 2), 2 := Stat(0, 0)]
  {
    var comments := ExampleComments();
    assert comments[..1] == [comments[0]];
    assert comments[..1][..0] == [];
    var t0 := Tally({1, 2}, []);
    assert t0 == map[1 := Stat(0, 0), 2 := Stat(0, 0)];
    var t1 := Tally({1, 2}, comments[..1]);
    assert Contribution(comments[0]) == map[1 := 8];
    assert t1 == AddContribution(t0, map[1 := 8]);
    assert t1 == map[1 := Stat(8, 1), 2 := Stat(0, 0)];
    assert Contribution(comments[1]) == map[1 := 10];
    assert Tally({1, 2}, comments) == AddContribution(t1, map[1 := 10]);
  }

  lemma ExampleMeans()
    ensures CategoryMeans(CategoryCommentStats({1, 2}, ExampleComments())) == map[1 := 9.0, 2 := 0.0]
  {
    ExampleTally();
  }

  lemma ExampleSum()
    ensures Sum(map[1 := 9.0, 2 := 0.0]) == 9.0
  {
    var means := map[1 := 9.0, 2 := 0.0];
    SumRemove(means, 1);
    assert means - {1} == map[2 := 0.0];
    SumRemove(map[2 := 0.0], 2);
    assert map[2 := 0.0] - {2} == map[];
  }

  /** Two categories; the first scored 8 and 10, the second never: the means
      are 9 and 0 and the overall average is 4.5, not the 9 a mean over the
      scored categories alone would give. */
  lemma WorkedExample()
    ensures CategoryCommentStats({1, 2}, ExampleComments())[1].avgScore == 9.0
    ensures CategoryCommentStats({1, 2}, ExampleComments())[2].avgScore == 0.0
    ensures UserAverageScore({1, 2}, ExampleComments()) == 4.5
  {
    ExampleMeans();
    ExampleSum();
    var means := map[1 := 9.0, 2 := 0.0];
    assert |means| == 2 by { assert means.Keys == {1, 2}; }
    assert Mean(means) == 9.0 / 2.0;
  }

  // ---------------------------------------------------------------------------
  // The mean shown with each comment

  /** Every score of the map lies in [lo, hi]. */
  predicate Within(scores: map<CategoryId, int>, lo: int, hi: int) {
    forall k :: k in scores ==> lo <= scores[k] <= hi
  }

  /** The entries of `m` whose keys lie in `keys`. */
  function Restrict(m: map<CategoryId, real>, keys: set<CategoryId>): (r: map<CategoryId, real>)
    ensures r.Keys == m.Keys * keys
  {
    map k | k in m && k in keys :: m[k]
  }

  /** The mean of one comment's scores as the comment serializer computes it:
      the sum over the entries divided by their number, and 0 for no entries. */
  method CommentAverageScore(scores: map<CategoryId, int>) returns (avg: real)
    ensures scores == map[] ==> avg == 0.0
    ensures scores != map[] ==> avg * (|scores| as real) == Sum(AsReals(scores))
    ensures forall lo, hi :: scores != map[] && Within(scores, lo, hi) ==> lo as real <= avg <= hi as real
  {
    ghost var all := AsReals(scores);
    var total := 0;
    var count := 0;
    var remaining := scores.Keys;
    assert Restrict(all, remaining) == all;
    while remaining != {}
      invariant remaining <= scores.Keys
      invariant count + |remaining| == |scores|
      invariant (total as real) + Sum(Restrict(all, remaining)) == Sum(all)
      decreases |remaining|
    {
      assert (forall j :: j !in remaining) ==> remaining == {};
      var k :| k in remaining;
      SumRemove(Restrict(all, remaining), k);
      assert Restrict(all, remaining) - {k} == Restrict(all, remaining - {k});
      total := total + scores[k];
      count := count + 1;
      remaining := remaining - {k};
    }
    assert Restrict(all, remaining) == map[];
    assert |all| == |scores| by { assert all.Keys == scores.Keys; }
    if count == 0 {
      assert scores == map[] by {
        assert scores.Keys == {} by { assert |scores.Keys| == 0; }
      }
      avg := 0.0;
    } else {
      avg := (total as real) / (count as real);
      forall lo, hi | Within(scores, lo, hi)
        ensures lo as real <= avg <= hi as real
      {
        DivideBoundsFrom(all, lo as real, hi as real);
      }
    }
  }

  lemma DivideBoundsFrom(m: map<CategoryId, real>, lo: real, hi: real)
    requires m != map[]
    requires forall k :: k in m ==> lo <= m[k] <= hi
    ensures lo <= Sum(m) / (|m| as real) <= hi
  {
    MeanBounds(m, lo, hi);
  }
}

=== FILE: reactions.dfy ===
/** Like and dislike toggles on a comment. The two reaction sets are kept
    apart: a like withdraws the user's dislike and vice versa. */
module Reactions {
  import opened Results
  import opened Entities

  datatype CleanError = LikedAndDisliked

  /** Whether a toggle added the reaction or withdrew it. */
  datatype ToggleAction = Added | Removed

  /** The consistency rule of the comment model: nobody both likes and
      dislikes the same comment. */
  predicate ReactionsConsistent(c: Comment) {
    c.likes !! c.dislikes
  }

  /** The comment model's validation of that rule. */
  function CleanComment(c: Comment): (r: Outcome<CleanError>)
    ensures r.Pass? <==> forall u :: u in c.likes ==> u !in c.dislikes
  {
    if exists u :: u in c.likes && u in c.dislikes then Fail(LikedAndDisliked) else Pass
  }

  /** Like toggle by user u: withdraws u's dislike, then adds u's like if
      absent and removes it if present. Nothing else changes. */
  function ToggleLike(c: Comment, u: ProfileId): (r: (Comment, ToggleAction))
    ensures u !in r.0.dislikes
    ensures u in r.0.likes <==> u !in c.likes
    ensures r.1 == Added <==> u !in c.likes
    ensures forall v :: v != u ==> (v in r.0.likes <==> v in c.likes) && (v in r.0.dislikes <==> v in c.dislikes)
    ensures r.0 == c.(likes := r.0.likes, dislikes := r.0.dislikes)
    ensures ReactionsConsistent(c) ==> ReactionsConsistent(r.0)
  {
    var dislikes := c.dislikes - {u};
    if u in c.likes then (c.(likes := c.likes - {u}, dislikes := dislikes), Removed)
    else (c.(likes := c.likes + {u}, dislikes := dislikes), Added)
  }

  /** Dislike toggle by user u: the mirror image of the like toggle. */
  function ToggleDislike(c: Comment, u: ProfileId): (r: (Comment, ToggleAction))
    ensures u !in r.0.likes
    ensures u in r.0.dislikes <==> u !in c.dislikes
    ensures r.1 == Added <==> u !in c.dislikes
    ensures forall v :: v != u ==> (v in r.0.likes <==> v in c.likes) && (v in r.0.dislikes <==> v in c.dislikes)
    ensures r.0 == c.(likes := r.0.likes, dislikes := r.0.dislikes)
    ensures ReactionsConsistent(c) ==> ReactionsConsistent(r.0)
  {
    var likes := c.likes - {u};
    if u in c.dislikes then (c.(likes := likes, dislikes := c.dislikes - {u}), Removed)
    else (c.(likes := likes, dislikes := c.dislikes + {u}), Added)
  }

  /** Liking twice restores the user's like and only withdraws a dislike;
      a user who had not disliked gets the comment back unchanged. */
  lemma LikeTwice(c: Comment, u: ProfileId)
    ensures ToggleLike(ToggleLike(c, u).0, u).0 == c.(dislikes := c.dislikes - {u})
    ensures u !in c.dislikes ==> ToggleLike(ToggleLike(c, u).0, u).0 == c
  {
    if u in c.likes { assert c.likes - {u} + {u} == c.likes; }
    else { assert c.likes + {u} - {u} == c.likes; }
    if u !in c.dislikes { assert c.dislikes - {u} == c.dislikes; }
  }

  /** Disliking twice restores the user's dislike and only withdraws a like. */
  lemma DislikeTwice(c: Comment, u: ProfileId)
    ensures ToggleDislike(ToggleDislike(c, u).0, u).0 == c.(likes := c.likes - {u})
    ensures u !in c.likes ==> ToggleDislike(ToggleDislike(c, u).0, u).0 == c
  {
    if u in c.dislikes { assert c.dislikes - {u} + {u} == c.dislikes; }
    else { assert c.dislikes + {u} - {u} == c.dislikes; }
    if u !in c.likes { assert c.likes - {u} == c.likes; }
  }

  /** A like followed by a dislike leaves only the dislike, whatever came before. */
  lemma LikeThenDislike(c: Comment, u: ProfileId)
    ensures var r := ToggleDislike(ToggleLike(c, u).0, u).0;
      u !in r.likes && u in r.dislikes
  {
  }

  /** The toggles keep every comment passing the model's validation. */
  lemma TogglesKeepClean(c: Comment, u: ProfileId)
    requires CleanComment(c).Pass?
    ensures CleanComment(ToggleLike(c, u).0).Pass?
    ensures CleanComment(ToggleDislike(c, u).0).Pass?
  {
  }
}

=== FILE: results.dfy ===
/** Failure-carrying return types shared by every component of the model.
    A request handler that answers with an error response, or a validator that
    raises, is modelled as returning `Err` / `Fail` with an error value. */
module Results {

  datatype Option<+T> = None | Some(value: T)

  /** The outcome of an operation that produces a value on success. */
  datatype Result<+T, +E> = Ok(value: T) | Err(error: E)

  /** The outcome of a validator that produces nothing on success. */
  datatype Outcome<+E> = Pass | Fail(error: E)
}

=== FILE: sums.dfy ===
/** Sums and means over the values of a finite map, independent of the order
    in which the keys are visited (Python iterates a dict in insertion order;
    a sum does not depend on it). */
module Sums {

  /** Some key of a non-empty map. Every sum below peels off this key. */
  ghost function Pick(m: map<int, real>): (k: int)
    requires m != map[]
    ensures k in m
  {
    assert (forall j :: j !in m.Keys) ==> m.Keys == {};
    var j :| j in m.Keys; j
  }

  /** The sum of all values of `m`. */
  ghost function Sum(m: map<int, real>): real
    decreases |m|
  {
    if m == map[] then 0.0
    else
      var k := Pick(m);
      assert |m - {k}| < |m| by { assert m.Keys - {k} < m.Keys; }
      m[k] + Sum(m - {k})
  }

  /** The arithmetic mean of the values of `m`, and 0 for the empty map. */
  ghost function Mean(m: map<int, real>): real
  {
    if |m| == 0 then 0.0 else Sum(m) / (|m| as real)
  }

  /** Dividing by a non-zero divisor and multiplying back is the identity. */
  lemma DivideTimes(x: real, d: real)
    requires d != 0.0
    ensures (x / d) * d == x
  {
  }

  /** The values of an integer-valued map, as reals. */
  function AsReals(m: map<int, int>): (r: map<int, real>)
    ensures r.Keys == m.Keys
    ensures forall k :: k in m ==> r[k] == m[k] as real
  {
    map k | k in m :: m[k] as real
  }

  /** Removing any key, not only the one `Sum` happens to pick, splits off its value. */
  lemma {:induction false} SumRemove(m: map<int, real>, k: int)
    requires k in m
    ensures Sum(m) == m[k] + Sum(m - {k})
    decreases |m|
  {
    var j := Pick(m);
    if j != k {
      assert |m - {j}| < |m| by { assert m.Keys - {j} < m.Keys; }
      assert |m - {k}| < |m| by { assert m.Keys - {k} < m.Keys; }
      SumRemove(m - {j}, k);
      SumRemove(m - {k}, j);
      assert m - {j} - {k} == m - {k} - {j};
    }
  }

  /** Every value of `m` lies in [lo, hi]. */
  ghost predicate Bounded(m: map<int, real>, lo: real, hi: real) {
    forall k :: k in m ==> lo <= m[k] <= hi
  }

  /** `n` copies of `x` added up; keeps the induction below free of products. */
  function Times(n: nat, x: real): real {
    if n == 0 then 0.0 else x + Times(n - 1, x)
  }

  /** `Times` is multiplication. */
  lemma {:induction false} TimesIsProduct(n: nat, x: real)
    ensures Times(n, x) == (n as real) * x
  {
    if n > 0 {
      TimesIsProduct(n - 1, x);
      assert (n as real) * x == ((n - 1) as real) * x + x;
    }
  }

  /** A sum of |m| values that each lie in [lo, hi] lies in [|m|·lo, |m|·hi]. */
  lemma {:induction false} SumBounds(m: map<int, real>, lo: real, hi: real)
    requires Bounded(m, lo, hi)
    ensures Times(|m|, lo) <= Sum(m) <= Times(|m|, hi)
    decreases |m|
  {
    if m != map[] {
      var k := Pick(m);
      var rest := m - {k};
      assert lo <= m[k] <= hi;
      assert Bounded(rest, lo, hi);
      assert |rest| == |m| - 1 by { assert rest.Keys == m.Keys - {k}; }
      SumBounds(rest, lo, hi);
    }
  }

  /** The mean of values in [lo, hi] lies in [lo, hi]. */
  lemma MeanBounds(m: map<int, real>, lo: real, hi: real)
    requires m != map[]
    requires Bounded(m, lo, hi)
    ensures lo <= Mean(m) <= hi
  {
    SumBounds(m, lo, hi);
    TimesIsProduct(|m|, lo);
    TimesIsProduct(|m|, hi);
    var n := |m| as real;
    assert n > 0.0 by {
      var k := Pick(m);
      assert k in m.Keys;
    }
    assert Mean(m) == Sum(m) / n;
    DivideBounds(Sum(m), n, lo, hi);
  }

  lemma DivideBounds(s: real, n: real, lo: real, hi: real)
    requires n > 0.0
    requires n * lo <= s <= n * hi
    ensures lo <= s / n <= hi
  {
    assert s / n - lo == (s - n * lo) / n;
    assert hi - s / n == (n * hi - s) / n;
  }
}

=== FILE: validators.dfy ===
/** The field validators of the profile model: phone number and upload size. */
module Validators {
  import opened Results
  import opened Decimal

  datatype FieldError =
    | PhoneNotTenDigits
    | PhoneStartsWithZero
    | FileTooLarge(limitMb: int)

  /** Upload limit for profile pictures: 2 MB. */
  const MaxUploadBytes: int := 2 * 1024 * 1024

  /** What `re.match(r"^\d{10}$", value)` accepts: `$` matches at the end of
      the text and also just before a final newline. */
  predicate MatchesTenDigitPattern(value: string) {
    || (|value| == 10 && AllDigits(value))
    || (|value| == 11 && AllDigits(value[..10]) && value[10] == '\n')
  }

  /** The phone validator as written: pattern first, then the leading zero. */
  function ValidatePhoneAsWritten(value: string): (r: Outcome<FieldError>)
    ensures r.Pass? <==> MatchesTenDigitPattern(value) && value[0] != '0'
    ensures r == Fail(PhoneNotTenDigits) <==> !MatchesTenDigitPattern(value)
  {
    if !MatchesTenDigitPattern(value) then Fail(PhoneNotTenDigits)
    else if value[0] == '0' then Fail(PhoneStartsWithZero)
    else Pass
  }

  /** The as-written validator lets an eleven-character value through. */
  lemma PhoneTrailingNewlineAccepted()
    ensures ValidatePhoneAsWritten("1234567890\n").Pass?
    ensures |"1234567890\n"| == 11
  {
    assert "1234567890\n"[..10] == "1234567890";
  }

  /** The phone validator as documented: exactly ten decimal digits, the first
      of which is not '0'. */
  function ValidatePhone(value: string): (r: Outcome<FieldError>)
    ensures r.Pass? <==> |value| == 10 && AllDigits(value) && value[0] != '0'
    ensures r.Fail? && (|value| != 10 || !AllDigits(value)) ==> r.error == PhoneNotTenDigits
  {
    if !(|value| == 10 && AllDigits(value)) then Fail(PhoneNotTenDigits)
    else if value[0] == '0' then Fail(PhoneStartsWithZero)
    else Pass
  }

  /** The two validators differ exactly on a valid number followed by a newline. */
  lemma PhoneValidatorsDiffer(value: string)
    ensures ValidatePhoneAsWritten(value).Pass? <==>
      || ValidatePhone(value).Pass?
      || (|value| == 11 && value[10] == '\n' && ValidatePhone(value[..10]).Pass?)
  {
    if |value| == 11 && AllDigits(value[..10]) {
      assert value[..10][0] == value[0];
    }
  }

  /** A text accepted by the documented validator is the rendering of a
      ten-digit number, so it reads back as a number in [10^9, 10^10). */
  lemma ValidPhoneIsTenDigitNumber(value: string)
    requires ValidatePhone(value).Pass?
    ensures 1_000_000_000 <= ParseDecimal(value) < 10_000_000_000
  {
    TenDigitBounds(value);
  }

  lemma {:induction false} TenDigitBounds(value: string)
    requires |value| == 10 && AllDigits(value) && value[0] != '0'
    ensures 1_000_000_000 <= ParseDecimal(value) < 10_000_000_000
  {
    PrefixBounds(value, 10);
    assert value[..10] == value;
    assert Pow10(10) == 10 * Pow10(9);
    assert Pow10(9) == 1_000_000_000 by {
      assert Pow10(3) == 1000;
      assert Pow10(6) == 1000 * Pow10(3) by { assert Pow10(6) == 10 * (10 * (10 * Pow10(3))); }
      assert Pow10(9) == 1000 * Pow10(6) by { assert Pow10(9) == 10 * (10 * (10 * Pow10(6))); }
    }
  }

  /** The value of the first k digits, when the first is not '0'. */
  lemma {:induction false} PrefixBounds(value: string, k: nat)
    requires 1 <= k <= |value| && AllDigits(value) && value[0] != '0'
    ensures AllDigits(value[..k])
    ensures Pow10(k - 1) <= ParseDecimal(value[..k]) < Pow10(k)
    decreases k
  {
    var p := value[..k];
    if k == 1 {
      assert p == [value[0]];
      assert ParseDecimal(p) == 10 * ParseDecimal(p[..0]) + DigitValue(p[0]);
      assert DigitChar(0) == '0';
    } else {
      PrefixBounds(value, k - 1);
      assert p[..k - 1] == value[..k - 1];
      assert ParseDecimal(p) == 10 * ParseDecimal(value[..k - 1]) + DigitValue(p[k - 1]);
    }
  }

  /** The upload-size validator: anything above 2 MB is refused, and the
      message reports the limit in whole megabytes. */
  function MaxFileSize(size: int): (r: Outcome<FieldError>)
    ensures r.Pass? <==> size <= 2097152
    ensures r.Fail? ==> r.error == FileTooLarge(2)
  {
    if size > MaxUploadBytes then Fail(FileTooLarge(MaxUploadBytes / (1024 * 1024)))
    else Pass
  }
}
